=== FILE: README.md ===
# Exam window rules and the QR answer-sheet bundle, in Dafny

This project models two small pieces of the peer-evaluation system and proves
what each promises.

- **The student's exam list** (`CourseExams.tsx`). It covers:
  - the countdown helper `getCountdown`;
  - the per-card flags `isStarted`, `isEnded` and `canSubmit`;
  - the countdown text and the two button labels derived from them;
  - the "Question Max Marks" list;
  - the upload panel's state transitions (`handleButtonClick`,
    `handleFileChange`, `handleSubmit`).

  Time is an integer number of milliseconds. The pure parts are functions
  with lemmas. The upload panel is a class whose fields are the three React
  state variables, and its handlers are methods. `handleSubmit` is split at
  its `await` into `BeginSubmit` and `FinishSubmit`, and the network outcome
  is a parameter of `FinishSubmit`.
- **The teacher's QR/PDF bundle controller** (`generateQrPdfBundle`). It
  covers:
  - the exam and batch lookups and their 404 answers, including the cast of
    the path parameter to an ObjectId, which fails with a 500 for text that is
    not 24 hexadecimal digits;
  - the two response headers, with the title sanitised by
    `replace(/\s+/g, "_")`;
  - the per-student loop, which appends one cover page per student in roster
    order;
  - the final `finalize`.

  Two small classes and a datatype stand in for the controller's objects:
  - `Response` records the status, headers and body;
  - `Archive` records the appended entries and whether it has been finalised;
  - a cover page (the datatype `CoverPage`) is the text it carries: the QR payload, the exam heading and
    the course heading.

  `JSON.stringify` of a string is modelled together with a reader that
  undoes it, so the QR payload can be shown to decode back to the student id
  and the exam id.

Files:
- `wrappers.dfy`: `Option`.
- `decimal.dfy`: `String(n)` and `padStart(2, "0")`, with an inverse.
- `course_exams.dfy`: the exam list.
- `json_text.dfy`: JSON string quoting and its reader.
- `qr_pdf_bundle.dfy`: the bundle controller.

Two behaviours of the code are modelled as written and stated as lemmas.
- **"Ends in null" at the deadline.** At the millisecond `now == end` the exam
  has not ended, because `isEnded` uses strict `<`. `getCountdown` already
  returns `null` at that moment, so the card reads "Ends in null"
  (`EndsInNullAtDeadline`).
- **Entry names are distinct only because of the ids.** The file-name
  template alone does not keep names apart: two students whose ids differ in
  length can share one (`EntryNamesCanCollide`). Ids of equal length do keep
  them apart (`EntryNamesDistinct`). The controller's student ids are
  24-character ObjectId text, so distinct students always get distinct files
  (`ObjectIdRosterNamesDistinct`). Only a student listed twice in the roster
  repeats a name.

One error path of the controller comes from Node rather than from the
controller's own text. `res.setHeader` throws on a header value containing a
character outside tab, 0x20–0x7E and 0x80–0xFF. This happens for a title with
such a character that `\s` does not match, so it survives sanitising and
reaches the header. White space outside that set (line breaks, U+2028,
U+3000, …) is replaced by `_` first and never reaches the header. The throw is inside the `try` and before `archive.pipe`, so the
answer is a clean 500 "Failed to generate PDF bundle". By then
`Content-Type` has already been set to `application/zip`, and `res.json`
adds `; charset=utf-8` to it, so that 500 goes out as
`application/zip; charset=utf-8`. The 404 answers and the cast-failure 500
are sent before any header is set, so they carry
`application/json; charset=utf-8`.

## Model

| member | source | states |
|---|---|---|
| CourseExams.GetCountdown | Peer_Evaluation_V3_NPTEL/frontend/src/components/student/CourseExams.tsx:43-53 | The result is null exactly when the target is not strictly in the future (`diff <= 0`) |
| CourseExams.CountdownRoundTrip | Peer_Evaluation_V3_NPTEL/frontend/src/components/student/CourseExams.tsx:48-52 | For `diff > 0`, reading the text back gives fields with `hrs*3600 + mins*60 + secs == diff div 1000` and minutes and seconds below 60; hours are unbounded, and the text is eight characters long exactly when fewer than 100 hours are left |
| CourseExams.SplitSeconds | Peer_Evaluation_V3_NPTEL/frontend/src/components/student/CourseExams.tsx:49-51 | The hours/minutes/seconds split recombines to the total, with minutes and seconds below 60 |
| CourseExams.ClockTextRoundTrip | Peer_Evaluation_V3_NPTEL/frontend/src/components/student/CourseExams.tsx:52 | The `hh:mm:ss` text of padded fields reads back as those fields; its length is 8 exactly when hours are below 100 |
| CourseExams.SubSecondCountdown | Peer_Evaluation_V3_NPTEL/frontend/src/components/student/CourseExams.tsx:46-52 | A difference of 1 to 999 ms gives "00:00:00", not null |
| CourseExams.ClockText | Peer_Evaluation_V3_NPTEL/frontend/src/components/student/CourseExams.tsx:52 | The joined text is at least eight characters long; with minutes and seconds below 100 the two `:` separators sit sixth and third from the end |
| Decimal.NatToString | Peer_Evaluation_V3_NPTEL/frontend/src/components/student/CourseExams.tsx:52 | `String(n)` is a non-empty digit string, of one digit exactly when n < 10 and of at most two exactly when n < 100; it starts with `0` only for n = 0, so there is no leading zero |
| Decimal.ValueOfNatToString | Peer_Evaluation_V3_NPTEL/frontend/src/components/student/CourseExams.tsx:52 | Reading the decimal text of n gives n back |
| Decimal.PadStart2 | Peer_Evaluation_V3_NPTEL/frontend/src/components/student/CourseExams.tsx:52 | `padStart(2, "0")` yields at least two characters: the input, preceded by zeros only when it was shorter than two |
| Decimal.TwoDigitsRoundTrip | Peer_Evaluation_V3_NPTEL/frontend/src/components/student/CourseExams.tsx:52 | A padded field is all digits, at least two long, two long exactly when n < 100, and reads back as n |
| CourseExams.ExamWindow | Peer_Evaluation_V3_NPTEL/frontend/src/components/student/CourseExams.tsx:157-159 | Started iff `start <= now`; ended iff `end < now`; `canSubmit` iff `start <= now <= end`, so the end is inclusive |
| CourseExams.PhaseOf | Peer_Evaluation_V3_NPTEL/frontend/src/components/student/CourseExams.tsx:157-159 | For `start <= end`, each of the three phases holds exactly on its own interval of `now` |
| CourseExams.Interpolate | Peer_Evaluation_V3_NPTEL/frontend/src/components/student/CourseExams.tsx:161-163 | A template literal shows a present string as itself; the shown text is "null" exactly for null or for the string "null" |
| CourseExams.CountdownText | Peer_Evaluation_V3_NPTEL/frontend/src/components/student/CourseExams.tsx:160-164 | No text exactly when the exam has started and ended; "Starts in " before the start; "Ends in " from the start through the end, inclusive |
| CourseExams.ViewButton | Peer_Evaluation_V3_NPTEL/frontend/src/components/student/CourseExams.tsx:183-185 | Enabled exactly when started; it reads "View Questions" exactly when enabled and "Locked" exactly when not |
| CourseExams.SubmitButton | Peer_Evaluation_V3_NPTEL/frontend/src/components/student/CourseExams.tsx:191-193 | Enabled exactly when `canSubmit`; it reads "Closed" iff ended, "Submit Answers" iff started and not ended, and "Not Started" iff neither |
| CourseExams.ExamCard | Peer_Evaluation_V3_NPTEL/frontend/src/components/student/CourseExams.tsx:156-194 | No countdown iff started and ended; the view button is enabled iff `start <= now`; the submit button iff `start <= now <= end` |
| CourseExams.CardByPhase | Peer_Evaluation_V3_NPTEL/frontend/src/components/student/CourseExams.tsx:157-194 | Per phase, the card's countdown text and both buttons (label and enabled state) are fixed: "Starts in"/"Locked"/"Not Started" before; "Ends in"/"View Questions"/"Submit Answers" during; none/"View Questions"/"Closed" after |
| CourseExams.StartsInBeforeStart | Peer_Evaluation_V3_NPTEL/frontend/src/components/student/CourseExams.tsx:160-161 | Before the start the text is "Starts in " followed by a real countdown that parses as a clock |
| CourseExams.EndsInDuringWindow | Peer_Evaluation_V3_NPTEL/frontend/src/components/student/CourseExams.tsx:162-163 | Strictly inside the window the text is "Ends in " followed by a real countdown to the end |
| CourseExams.EndsInNullAtDeadline | Peer_Evaluation_V3_NPTEL/frontend/src/components/student/CourseExams.tsx:160-164 | At `now == end` the text is "Ends in null", because the helper returns null there and the template prints it |
| CourseExams.ClosedWheneverEnded | Peer_Evaluation_V3_NPTEL/frontend/src/components/student/CourseExams.tsx:193 | Once ended the submit button reads "Closed" and is disabled, even when start lies after end |
| CourseExams.ButtonsFollowWindow | Peer_Evaluation_V3_NPTEL/frontend/src/components/student/CourseExams.tsx:183-193 | The view button is enabled and reads "View Questions" iff started; the submit button is enabled and reads "Submit Answers" iff `start <= now <= end`, reads "Closed" iff ended, and reads "Not Started" otherwise |
| CourseExams.MarksOrZero | Peer_Evaluation_V3_NPTEL/frontend/src/components/student/CourseExams.tsx:253 | The stored marks when the list has that entry; a non-zero value always comes from the stored list, so a missing list or entry shows 0 |
| CourseExams.RowsFrom | Peer_Evaluation_V3_NPTEL/frontend/src/components/student/CourseExams.tsx:251-253 | The rows for questions `from+1` to `count`: each numbered from 1 and carrying the stored marks or 0 |
| CourseExams.MaxMarksList | Peer_Evaluation_V3_NPTEL/frontend/src/components/student/CourseExams.tsx:251-253 | Exactly `numQuestions` rows (none for a non-positive count); row i is numbered i+1 and carries `maxMarks[i]` when present, otherwise 0 |
| CourseExams.MaxMarksListMatchesStored | Peer_Evaluation_V3_NPTEL/frontend/src/components/student/CourseExams.tsx:253 | With at least `numQuestions` stored marks, each row shows its stored marks |
| CourseExams.FailureMessage | Peer_Evaluation_V3_NPTEL/frontend/src/components/student/CourseExams.tsx:111-115 | The failure text is the server's error when it is a non-empty string, otherwise its message when that is non-empty, otherwise "Submission failed."; never empty |
| CourseExams.UploadPanel.constructor | Peer_Evaluation_V3_NPTEL/frontend/src/components/student/CourseExams.tsx:61-63 | No panel open, no file, no message |
| CourseExams.UploadPanel.ShowsPanel | Peer_Evaluation_V3_NPTEL/frontend/src/components/student/CourseExams.tsx:196 | The panel shows for an exam iff it is the active one and its window is open (end inclusive) |
| CourseExams.UploadPanel.UploadCaption | Peer_Evaluation_V3_NPTEL/frontend/src/components/student/CourseExams.tsx:209 | The panel button reads "Upload PDF" iff a file is chosen, "Choose PDF" iff none is |
| CourseExams.UploadOnlyWhenOpen | Peer_Evaluation_V3_NPTEL/frontend/src/components/student/CourseExams.tsx:196-210 | Under the panel invariant (a file is chosen only while a panel is open), "Upload PDF" shows only while some exam's panel is open |
| CourseExams.UploadPanel.ButtonClick | Peer_Evaluation_V3_NPTEL/frontend/src/components/student/CourseExams.tsx:74-81 | Clicking sets the active exam and clears the message and the file |
| CourseExams.UploadPanel.FileChange | Peer_Evaluation_V3_NPTEL/frontend/src/components/student/CourseExams.tsx:83-85 | The chosen file is the first one picked, or none; nothing else changes |
| CourseExams.UploadPanel.BeginSubmit | Peer_Evaluation_V3_NPTEL/frontend/src/components/student/CourseExams.tsx:87-96 | With no file, only the message changes, to "Please select a PDF file.", and nothing is posted; with a file, the message becomes "Uploading..." and the posted form carries that file and the exam id |
| CourseExams.UploadPanel.FinishSubmit | Peer_Evaluation_V3_NPTEL/frontend/src/components/student/CourseExams.tsx:107-116 | Success sets the message to "Submission successful!" and clears the active exam and the file; failure keeps both and sets the message to the failure text |
| CourseExams.SuccessNeverShown | Peer_Evaluation_V3_NPTEL/frontend/src/components/student/CourseExams.tsx:196-216 | After a click, a file choice and an accepted upload, the message is "Submission successful!" but no card shows the panel that would display it |
| CourseExams.ClickChooseAndFail | Peer_Evaluation_V3_NPTEL/frontend/src/components/student/CourseExams.tsx:74-116 | Click, choose a file, and a rejected post with empty fields: the panel stays open with the file and shows "Submission failed." |
| JsonText.EscapeBody | Peer_Evaluation_V3_NPTEL/backend/src/controllers/teacher/generateExamQrPdfBundle.controller.ts:45 | Escaping never shortens a text |
| JsonText.Quote | Peer_Evaluation_V3_NPTEL/backend/src/controllers/teacher/generateExamQrPdfBundle.controller.ts:45 | A JSON string literal starts and ends with `"` and is at least two characters longer than its text |
| JsonText.QuoteRoundTrip | Peer_Evaluation_V3_NPTEL/backend/src/controllers/teacher/generateExamQrPdfBundle.controller.ts:45 | Reading a JSON string literal back yields the original text and leaves whatever follows untouched |
| JsonText.QuoteIsInjective | Peer_Evaluation_V3_NPTEL/backend/src/controllers/teacher/generateExamQrPdfBundle.controller.ts:45 | Distinct texts have distinct JSON string literals |
| QrPdfBundle.FindById | Peer_Evaluation_V3_NPTEL/backend/src/controllers/teacher/generateExamQrPdfBundle.controller.ts:27-31 | A lookup finds a record exactly when the id is stored, and then finds the stored record |
| QrPdfBundle.CanonicalId | Peer_Evaluation_V3_NPTEL/backend/src/controllers/teacher/generateExamQrPdfBundle.controller.ts:17-19 | The text of the ObjectId cast from the path parameter: the same length, each digit `A`–`F` lowered and every other character kept |
| QrPdfBundle.CanonicalIdIsLower | Peer_Evaluation_V3_NPTEL/backend/src/controllers/teacher/generateExamQrPdfBundle.controller.ts:17-19 | The canonical form of ObjectId text is ObjectId text with no upper-case digit, and is its own canonical form |
| QrPdfBundle.FindByIdText | Peer_Evaluation_V3_NPTEL/backend/src/controllers/teacher/generateExamQrPdfBundle.controller.ts:17-25 | `findById` on the path text: a cast failure exactly for text that is not 24 hexadecimal digits (of either case); otherwise found exactly when the canonical id is stored, and then the stored record |
| QrPdfBundle.SkipWhitespace | Peer_Evaluation_V3_NPTEL/backend/src/controllers/teacher/generateExamQrPdfBundle.controller.ts:38 | What remains after a white-space run is no longer than the input and does not start with white space |
| QrPdfBundle.SkipWhitespaceSplits | Peer_Evaluation_V3_NPTEL/backend/src/controllers/teacher/generateExamQrPdfBundle.controller.ts:38 | The skipped prefix is all white space and the rest is the input's suffix |
| QrPdfBundle.CollapseWhitespace | Peer_Evaluation_V3_NPTEL/backend/src/controllers/teacher/generateExamQrPdfBundle.controller.ts:38 | The sanitised title is never longer than the title |
| QrPdfBundle.CollapseHasNoWhitespace | Peer_Evaluation_V3_NPTEL/backend/src/controllers/teacher/generateExamQrPdfBundle.controller.ts:38 | The sanitised title contains no white space |
| QrPdfBundle.CollapseKeepsClean | Peer_Evaluation_V3_NPTEL/backend/src/controllers/teacher/generateExamQrPdfBundle.controller.ts:38 | A title without white space is left unchanged |
| QrPdfBundle.CollapseIdempotent | Peer_Evaluation_V3_NPTEL/backend/src/controllers/teacher/generateExamQrPdfBundle.controller.ts:38 | Sanitising twice is sanitising once |
| QrPdfBundle.CollapseUnchangedIff | Peer_Evaluation_V3_NPTEL/backend/src/controllers/teacher/generateExamQrPdfBundle.controller.ts:38 | Sanitising leaves a title unchanged exactly when it has no white space |
| QrPdfBundle.CollapseAppend | Peer_Evaluation_V3_NPTEL/backend/src/controllers/teacher/generateExamQrPdfBundle.controller.ts:38 | Sanitising splits at any point not preceded by white space |
| QrPdfBundle.ReplacesEachMaximalRun | Peer_Evaluation_V3_NPTEL/backend/src/controllers/teacher/generateExamQrPdfBundle.controller.ts:38 | A maximal white-space run between two parts becomes exactly one `_`, and the parts are sanitised independently; everything else keeps its order |
| QrPdfBundle.CollapseHeaderSafe | Peer_Evaluation_V3_NPTEL/backend/src/controllers/teacher/generateExamQrPdfBundle.controller.ts:38 | The sanitised title is a valid header value exactly when every title character is white space or a header character |
| QrPdfBundle.DownloadName | Peer_Evaluation_V3_NPTEL/backend/src/controllers/teacher/generateExamQrPdfBundle.controller.ts:38 | The download name ends in `_QR_Papers.zip` and is never longer than the title plus those 14 characters |
| QrPdfBundle.ContentDisposition | Peer_Evaluation_V3_NPTEL/backend/src/controllers/teacher/generateExamQrPdfBundle.controller.ts:36-39 | `attachment; filename="<sanitised title>_QR_Papers.zip"` is accepted by `setHeader` exactly when the title is header-safe |
| QrPdfBundle.ContentTypeZipIsValid | Peer_Evaluation_V3_NPTEL/backend/src/controllers/teacher/generateExamQrPdfBundle.controller.ts:35 | `application/zip` is always accepted by `setHeader`, and carries no parameters |
| QrPdfBundle.JsonAnswerAfterZip | Peer_Evaluation_V3_NPTEL/backend/src/controllers/teacher/generateExamQrPdfBundle.controller.ts:35 | Once `application/zip` has been set, a JSON answer goes out with Content-Type `application/zip; charset=utf-8` and every other header kept |
| QrPdfBundle.QrPayloadRoundTrip | Peer_Evaluation_V3_NPTEL/backend/src/controllers/teacher/generateExamQrPdfBundle.controller.ts:44-45 | The payload `{"studentId":…,"examId":…}` decodes to exactly the student id and the exam id it was made from |
| QrPdfBundle.QrPayloadInjective | Peer_Evaluation_V3_NPTEL/backend/src/controllers/teacher/generateExamQrPdfBundle.controller.ts:45 | Different (student, exam) pairs never share a payload |
| QrPdfBundle.EntryNamesDistinct | Peer_Evaluation_V3_NPTEL/backend/src/controllers/teacher/generateExamQrPdfBundle.controller.ts:70-73 | Students with distinct ids of equal length get distinct file names, whatever their names |
| QrPdfBundle.EntryNamesCanCollide | Peer_Evaluation_V3_NPTEL/backend/src/controllers/teacher/generateExamQrPdfBundle.controller.ts:70-73 | Two students can collide when the ids differ in length: name "a_b" with id "c", and name "a" with id "b_c" |
| QrPdfBundle.BundleEntries | Peer_Evaluation_V3_NPTEL/backend/src/controllers/teacher/generateExamQrPdfBundle.controller.ts:43-78 | The bundle has one entry per roster student |
| QrPdfBundle.BundleEntriesAt | Peer_Evaluation_V3_NPTEL/backend/src/controllers/teacher/generateExamQrPdfBundle.controller.ts:43-78 | The bundle has one entry per roster student, and entry i is that student's name and cover page |
| QrPdfBundle.BundlePayloadsDecode | Peer_Evaluation_V3_NPTEL/backend/src/controllers/teacher/generateExamQrPdfBundle.controller.ts:43-47 | Every entry's QR payload decodes to its own student's id and the requested exam id (the path parameter, not a field of the record) |
| QrPdfBundle.BundleNamesDistinct | Peer_Evaluation_V3_NPTEL/backend/src/controllers/teacher/generateExamQrPdfBundle.controller.ts:70-74 | With pairwise distinct ids of one length, no two entries of the bundle share a file name |
| QrPdfBundle.ObjectIdRosterNamesDistinct | Peer_Evaluation_V3_NPTEL/backend/src/controllers/teacher/generateExamQrPdfBundle.controller.ts:43-74 | With the controller's ObjectId-text student ids, pairwise distinct, no two entries of the bundle share a file name |
| QrPdfBundle.MessageJson | Peer_Evaluation_V3_NPTEL/backend/src/controllers/teacher/generateExamQrPdfBundle.controller.ts:23 | The JSON answer starts with `{"message":` and the rest reads back as the message's string literal followed by `}` |
| QrPdfBundle.JsonAnswerHeaders | Peer_Evaluation_V3_NPTEL/backend/src/controllers/teacher/generateExamQrPdfBundle.controller.ts:23 | After `res.json` every header but Content-Type is kept, and Content-Type is present: `application/json; charset=utf-8` when none was set |
| QrPdfBundle.Response.constructor | Peer_Evaluation_V3_NPTEL/backend/src/controllers/teacher/generateExamQrPdfBundle.controller.ts:12-15 | A fresh response: status 200, no headers, nothing sent |
| QrPdfBundle.Response.SendMessage | Peer_Evaluation_V3_NPTEL/backend/src/controllers/teacher/generateExamQrPdfBundle.controller.ts:23 | `res.status(code).json({message})` sets the status and the JSON body; the headers become the ones `res.json` leaves |
| QrPdfBundle.Response.SetHeader | Peer_Evaluation_V3_NPTEL/backend/src/controllers/teacher/generateExamQrPdfBundle.controller.ts:35-39 | It succeeds exactly for a valid header value and then replaces that header; otherwise nothing changes |
| QrPdfBundle.Response.AttachZipStream | Peer_Evaluation_V3_NPTEL/backend/src/controllers/teacher/generateExamQrPdfBundle.controller.ts:41 | After piping, the body is the archive's stream; status and headers are kept |
| QrPdfBundle.Archive.constructor | Peer_Evaluation_V3_NPTEL/backend/src/controllers/teacher/generateExamQrPdfBundle.controller.ts:33 | A new archive has no entries and is not finalised |
| QrPdfBundle.Archive.Append | Peer_Evaluation_V3_NPTEL/backend/src/controllers/teacher/generateExamQrPdfBundle.controller.ts:74 | Appending, which is allowed only before finalising, adds exactly one entry at the end |
| QrPdfBundle.Archive.Finalize | Peer_Evaluation_V3_NPTEL/backend/src/controllers/teacher/generateExamQrPdfBundle.controller.ts:80 | Finalising happens once and keeps the entries |
| QrPdfBundle.SetZipHeaders | Peer_Evaluation_V3_NPTEL/backend/src/controllers/teacher/generateExamQrPdfBundle.controller.ts:35-39 | Content-Type is always set; Content-Disposition is set exactly when the download name is a valid header value |
| QrPdfBundle.AppendRoster | Peer_Evaluation_V3_NPTEL/backend/src/controllers/teacher/generateExamQrPdfBundle.controller.ts:43-78 | The loop leaves exactly the bundle's entries, one per student in roster order (after i rounds, the first i), and does not finalise |
| QrPdfBundle.StreamBundle | Peer_Evaluation_V3_NPTEL/backend/src/controllers/teacher/generateExamQrPdfBundle.controller.ts:33-84 | After the lookups: either a 500 with no entries, Content-Type `application/zip; charset=utf-8` and no Content-Disposition change; or both headers set, the body piped, all entries appended and then finalised |
| QrPdfBundle.GenerateQrPdfBundle | Peer_Evaluation_V3_NPTEL/backend/src/controllers/teacher/generateExamQrPdfBundle.controller.ts:16-85 | Path text that is not ObjectId text: 500 "Failed to generate PDF bundle". Exam missing: 404 "Exam not found"; batch missing: 404 "Batch not found". In these three cases no archive exists and the headers are the ones `res.json` leaves, which on a fresh response means Content-Type `application/json; charset=utf-8`. Otherwise the result is either the header-value 500 (Content-Type `application/zip; charset=utf-8`) or the finalised bundle of all roster entries, for the exam stored under the canonical id, with both headers |
| QrPdfBundle.MidtermTitle | Peer_Evaluation_V3_NPTEL/backend/src/controllers/teacher/generateExamQrPdfBundle.controller.ts:38 | "Midterm 1" is sanitised to "Midterm_1" |
| QrPdfBundle.MidtermDispositionValid | Peer_Evaluation_V3_NPTEL/backend/src/controllers/teacher/generateExamQrPdfBundle.controller.ts:36-39 | The download name of "Midterm 1" is a valid header value |
| QrPdfBundle.QrPayloadOfPlainIds | Peer_Evaluation_V3_NPTEL/backend/src/controllers/teacher/generateExamQrPdfBundle.controller.ts:45 | For ids that JSON leaves unescaped, the payload is `{"studentId":"<student id>","examId":"<exam id>"}` verbatim |
| QrPdfBundle.LowerHexIsPlain | Peer_Evaluation_V3_NPTEL/backend/src/controllers/teacher/generateExamQrPdfBundle.controller.ts:17-19 | Lower-case hexadecimal text is its own canonical form and is left unescaped by JSON; 24 characters of it are ObjectId text |
| QrPdfBundle.MidtermExamIdIsCanonical | Peer_Evaluation_V3_NPTEL/backend/src/controllers/teacher/generateExamQrPdfBundle.controller.ts:17-19 | The worked id `65f1a2b3c4d5e6f708192a3b` is ObjectId text, already canonical, and unescaped by JSON |
| QrPdfBundle.MidtermAliceName | Peer_Evaluation_V3_NPTEL/backend/src/controllers/teacher/generateExamQrPdfBundle.controller.ts:70-73 | Alice (id s1) gets `Alice_s1_Midterm_1.pdf` |
| QrPdfBundle.MidtermAlicePayload | Peer_Evaluation_V3_NPTEL/backend/src/controllers/teacher/generateExamQrPdfBundle.controller.ts:44-45 | Alice's QR code reads `{"studentId":"s1","examId":"65f1a2b3c4d5e6f708192a3b"}` |
| QrPdfBundle.MidtermBobName | Peer_Evaluation_V3_NPTEL/backend/src/controllers/teacher/generateExamQrPdfBundle.controller.ts:70-73 | Bob (id s2) gets `Bob_s2_Midterm_1.pdf` |
| QrPdfBundle.MidtermBobPayload | Peer_Evaluation_V3_NPTEL/backend/src/controllers/teacher/generateExamQrPdfBundle.controller.ts:44-45 | Bob's QR code reads `{"studentId":"s2","examId":"65f1a2b3c4d5e6f708192a3b"}` |
| QrPdfBundle.MidtermExample | Peer_Evaluation_V3_NPTEL/backend/src/controllers/teacher/generateExamQrPdfBundle.controller.ts:16-85 | The controller run on exam `65f1a2b3c4d5e6f708192a3b` "Midterm 1" with roster Alice, Bob finalises an archive of exactly those two entries, in that order |

`EntryName` (`generateExamQrPdfBundle.controller.ts`, lines 70-73),
`QrPayload` (lines 44-45) and `EntryFor` (lines 43-74) have no contract of their own. What they promise is stated by
`EntryNamesDistinct` and `EntryNamesCanCollide`, by `QrPayloadRoundTrip`,
`QrPayloadInjective` and `QrPayloadOfPlainIds`, and by `BundleEntriesAt` and
`BundlePayloadsDecode`.

## Left out

- GetCountdown: computes with integer division, while the source floors a floating-point quotient. The two agree whenever the difference is below 2^43 seconds (about 278,000 years): the quotient is then exact to within less than a thousandth, so flooring it gives the integer quotient. `Date` values reach ±8.64e15 ms, so only dates near opposite ends of that range lie further apart.
- Decimal.NatToString: does not model JavaScript's exponent notation for numbers of 10^21 or more; hours that large do not occur.
- Date parsing is not modelled. Times are integers, so an unparsable date string, which would make the text "NaN:NaN:NaN", is not represented.
- Each card is evaluated with one `now`. The helper's own clock read is not modelled separately, and neither is the one-second `setInterval` tick. Both are clock I/O. The helper's clock is never behind the state `now`, so the source can also show "Starts in null" (state `now` before the start, real clock past it), and "Ends in null" can last up to a tick rather than one millisecond; `StartsInBeforeStart` rules out the first only under this assumption.
- `formatIST` and the rest of the JSX rendering are not modelled: they are locale formatting (Intl) and layout.
- The following are not modelled; they are network, browser or DOM I/O:
  - axios requests, the bearer token from `localStorage`, and the multipart encoding;
  - the `setTimeout` that clicks the hidden file input.

  The post's outcome is a parameter of `FinishSubmit`.
- `handleViewExam` and `handleCloseModal` are not modelled. They fetch the question paper and manage a blob URL and DOM clicks, none of which are exam-window rules.
- Maximum marks are integers. The source shows each stored JavaScript number unchanged, so fractional marks also appear there; their decimal text is not modelled.
- `numQuestions` is modelled as an integer. The fractional and huge lengths that `Array.from` truncates or rejects with a RangeError are not modelled.
- The contents of the generated files are not modelled: the QR image (`qrcode`), the PDF bytes and layout (`pdfkit`: page size, margins, font sizes), and the ZIP compression (`archiver`). A cover page is represented by its payload and its two headings.
- The `PassThrough` chunk collection is not modelled: it only concatenates the PDF stream into one buffer.
- The course name is taken as present. The course belongs to the exam and is read for every student, so a missing course fails in the first round, before any append. The catch then answers 500 with Content-Type `application/zip; charset=utf-8` and the `attachment` Content-Disposition already set. With an empty roster the course is never read and nothing is raised. A failure after the archive has written into the response cannot be answered at all: the headers are gone, `res.json` itself throws, and the client keeps its 200 and an unfinished ZIP. These are stream and HTTP behaviour.
- Mongoose `findById` and `populate` are maps looked up by id, keyed by canonical (lower-case) ObjectId text; the batch lookup takes the exam's stored batch id, which needs no cast. Dropping roster references to deleted students is part of `populate` and not modelled: the roster is taken as populated.
- Headers that Express or Node add themselves (Content-Length and ETag on every JSON answer, date, transfer encoding) are not modelled. `JsonAnswerHeaders` therefore lists only the headers the controller and `res.json`'s Content-Type handling touch.
- A student's name or id that is missing (printed as "undefined" by the template) is not modelled: both are strings here.
- QrPdfBundle.FindByIdText: treats exactly the 24-digit hexadecimal strings as ObjectId text; the 12-character strings that some BSON versions also take as raw bytes are not modelled.
- QrPdfBundle.Response.SendMessage: a Content-Type that already has parameters is kept as it is, where Express would set its charset parameter to utf-8; the controller only ever has `application/zip` there.
- Strings are sequences of Unicode scalar values, while JavaScript strings are UTF-16 code units. A lone surrogate, which `JSON.stringify` writes as a `\udXXX` escape, cannot occur here, and JavaScript's `length` counts code units where `|s|` counts characters.

=== FILE: course_exams.dfy ===
/**
 * The rules of the student's exam list: the countdown helper, the exam window
 * (before / during / after), the button labels and countdown text derived from
 * it, the "Question Max Marks" list, and the upload panel's state transitions.
 *
 * Time is an integer number of milliseconds since the epoch. The helper that
 * formats the countdown is given the same `now` as the rest of the card.
 */
module CourseExams {

  import opened Wrappers
  import opened Decimal

  // ---------------------------------------------------------------------------
  // Countdown
  // ---------------------------------------------------------------------------

  /**
   * `getCountdown`: the time from `now` to `target` as `hh:mm:ss`, each field
   * zero-padded to at least two digits, or `None` (JavaScript `null`) when the
   * target is not strictly in the future. Hours are not bounded.
   */
  function GetCountdown(target: int, now: int): (r: Option<string>)
    ensures r.None? <==> target - now <= 0
  {
    var diff := target - now;
    if diff <= 0 then None
    else
      var totalSecs := diff / 1000;
      var hrs := totalSecs / 3600;
      var mins := (totalSecs % 3600) / 60;
      var secs := totalSecs % 60;
      Some(ClockText(hrs, mins, secs))
  }

  /** The three padded fields joined by `:`. */
  function ClockText(hrs: nat, mins: nat, secs: nat): (t: string)
    ensures |t| >= 8
    ensures mins < 100 && secs < 100 ==> t[|t| - 6] == ':' && t[|t| - 3] == ':'
  {
    TwoDigits(hrs) + ":" + TwoDigits(mins) + ":" + TwoDigits(secs)
  }

  /** A reading of a clock text: hours, minutes and seconds. */
  datatype Clock = Clock(hours: nat, minutes: nat, seconds: nat)

  /**
   * Reads `h…h:mm:ss` (at least two hour digits, exactly two minute and two
   * second digits) back into its three fields.
   */
  function ParseClock(s: string): Option<Clock> {
    if |s| >= 8 && s[|s| - 6] == ':' && s[|s| - 3] == ':'
       && AllDigits(s[..|s| - 6]) && AllDigits(s[|s| - 5..|s| - 3]) && AllDigits(s[|s| - 2..])
    then Some(Clock(Value(s[..|s| - 6]), Value(s[|s| - 5..|s| - 3]), Value(s[|s| - 2..])))
    else None
  }

  /** The decomposition of a number of seconds into hours, minutes below 60 and seconds below 60. */
  lemma {:induction false} SplitSeconds(t: nat)
    ensures 0 <= (t % 3600) / 60 < 60 && 0 <= t % 60 < 60
    ensures (t / 3600) * 3600 + ((t % 3600) / 60) * 60 + t % 60 == t
  {
    var q, r := t / 3600, t % 3600;
    var a, b := r / 60, r % 60;
    assert t == 3600 * q + 60 * a + b;
    assert t == 60 * (60 * q + a) + b;
    assert t % 60 == b;
  }

  /** Joining a digit field of two or more digits and two two-digit fields reads back as their values. */
  lemma {:induction false} ParseClockJoin(h: string, m: string, s: string)
    requires AllDigits(h) && AllDigits(m) && AllDigits(s)
    requires |h| >= 2 && |m| == 2 && |s| == 2
    ensures ParseClock(h + ":" + m + ":" + s) == Some(Clock(Value(h), Value(m), Value(s)))
  {
    var text := h + ":" + m + ":" + s;
    var hp, mp, sp := text[..|text| - 6], text[|text| - 5..|text| - 3], text[|text| - 2..];
    assert hp == h && mp == m && sp == s;
    assert Value(hp) == Value(h) && Value(mp) == Value(m) && Value(sp) == Value(s);
    assert text[|text| - 6] == ':' && text[|text| - 3] == ':';
  }

  /** A clock text with minutes and seconds below 100 reads back as its three fields. */
  lemma {:induction false} ClockTextRoundTrip(hrs: nat, mins: nat, secs: nat)
    requires mins < 100 && secs < 100
    ensures ParseClock(ClockText(hrs, mins, secs)) == Some(Clock(hrs, mins, secs))
    ensures |ClockText(hrs, mins, secs)| == 8 <==> hrs < 100
  {
    TwoDigitsRoundTrip(hrs);
    TwoDigitsRoundTrip(mins);
    TwoDigitsRoundTrip(secs);
    ParseClockJoin(TwoDigits(hrs), TwoDigits(mins), TwoDigits(secs));
  }

  /**
   * For a target strictly in the future, the countdown text reads back as the
   * whole number of seconds left: `hrs*3600 + mins*60 + secs == diff div 1000`,
   * with minutes and seconds below 60; the text is exactly eight characters
   * long unless 100 hours or more are left.
   */
  lemma {:induction false} CountdownRoundTrip(target: int, now: int)
    requires target - now > 0
    ensures GetCountdown(target, now).Some?
    ensures ParseClock(GetCountdown(target, now).value).Some?
    ensures var c := ParseClock(GetCountdown(target, now).value).value;
      && c.hours * 3600 + c.minutes * 60 + c.seconds == (target - now) / 1000
      && c.minutes < 60 && c.seconds < 60
    ensures |GetCountdown(target, now).value| == 8 <==> (target - now) / 1000 < 360000
  {
    var t := (target - now) / 1000;
    var hrs, mins, secs := t / 3600, (t % 3600) / 60, t % 60;
    assert GetCountdown(target, now) == Some(ClockText(hrs, mins, secs));
    SplitSeconds(t);
    ClockTextRoundTrip(hrs, mins, secs);
    assert hrs < 100 <==> t < 360000;
  }

  /** Less than one second ahead is still a countdown, not `null`. */
  lemma SubSecondCountdown(target: int, now: int)
    requires 1 <= target - now <= 999
    ensures GetCountdown(target, now) == Some("00:00:00")
  {
    assert (target - now) / 1000 == 0;
    assert TwoDigits(0) == "00";
    assert ClockText(0, 0, 0) == "00:00:00";
  }

  // ---------------------------------------------------------------------------
  // Exam window, labels and countdown text
  // ---------------------------------------------------------------------------

  /** The three flags the card computes from the exam's start, end and the current time. */
  datatype Window = Window(isStarted: bool, isEnded: bool, canSubmit: bool)

  /** `isStarted`, `isEnded` and `canSubmit`; the end is inclusive for submitting. */
  function ExamWindow(start: int, end: int, now: int): (w: Window)
    ensures w.isStarted <==> start <= now
    ensures w.isEnded <==> end < now
    ensures w.canSubmit <==> start <= now && now <= end
  {
    var isStarted := start <= now;
    var isEnded := end < now;
    Window(isStarted, isEnded, isStarted && !isEnded)
  }

  /** How a template literal `${x}` shows a string-or-null value. */
  function Interpolate(x: Option<string>): (r: string)
    ensures x.Some? ==> r == x.value
    ensures r == "null" <==> x.None? || x == Some("null")
  {
    match x
    case Some(s) => s
    case None => "null"
  }

  /** `countdownText`: "Starts in …" before the start, "Ends in …" until the end, then none. */
  function CountdownText(start: int, end: int, now: int): (r: Option<string>)
    ensures r.None? <==> start <= now && end < now
    ensures now < start ==> |r.value| >= 10 && r.value[..10] == "Starts in "
    ensures start <= now <= end ==> |r.value| >= 8 && r.value[..8] == "Ends in "
  {
    var w := ExamWindow(start, end, now);
    if !w.isStarted then Some("Starts in " + Interpolate(GetCountdown(start, now)))
    else if !w.isEnded then Some("Ends in " + Interpolate(GetCountdown(end, now)))
    else None
  }

  /** A button: its label and whether it can be pressed. */
  datatype Button = Button(caption: string, enabled: bool)

  /** The "View Questions" button: enabled exactly once the exam has started. */
  function ViewButton(w: Window): (b: Button)
    ensures b.enabled <==> w.isStarted
    ensures b.caption == "View Questions" <==> b.enabled
    ensures b.caption == "Locked" <==> !b.enabled
  {
    Button(if w.isStarted then "View Questions" else "Locked", w.isStarted)
  }

  /** The submit button: "Closed" once ended, else "Submit Answers" once started, else "Not Started". */
  function SubmitButton(w: Window): (b: Button)
    ensures b.enabled <==> w.canSubmit
    ensures b.caption == "Closed" <==> w.isEnded
    ensures b.caption == "Submit Answers" <==> w.isStarted && !w.isEnded
    ensures b.caption == "Not Started" <==> !w.isStarted && !w.isEnded
  {
    Button(if w.isEnded then "Closed" else if w.isStarted then "Submit Answers" else "Not Started", w.canSubmit)
  }

  /** What one exam card shows about its window. */
  datatype Card = Card(countdown: Option<string>, view: Button, submit: Button)

  /** What the card shows, from the exam's start and end and the current time. */
  function ExamCard(start: int, end: int, now: int): (c: Card)
    ensures c.countdown.None? <==> start <= now && end < now
    ensures c.view.enabled <==> start <= now
    ensures c.submit.enabled <==> start <= now <= end
  {
    var w := ExamWindow(start, end, now);
    Card(CountdownText(start, end, now), ViewButton(w), SubmitButton(w))
  }

  /** The three phases of a well-formed exam window. */
  datatype Phase = Upcoming | Open | Over

  function PhaseOf(start: int, end: int, now: int): (p: Phase)
    requires start <= end
    ensures p == Upcoming <==> now < start
    ensures p == Open <==> start <= now <= end
    ensures p == Over <==> end < now
  {
    if now < start then Upcoming else if now <= end then Open else Over
  }

  /**
   * For a window with `start <= end`, the card is determined by the phase:
   * before the start it counts down to the start and nothing can be pressed;
   * during the window both buttons are live and it counts down to the end;
   * after the end there is no countdown and only viewing is possible.
   */
  lemma CardByPhase(start: int, end: int, now: int)
    requires start <= end
    ensures var c := ExamCard(start, end, now);
      match PhaseOf(start, end, now)
      case Upcoming =>
        && c.countdown == Some("Starts in " + GetCountdown(start, now).value)
        && c.view == Button("Locked", false) && c.submit == Button("Not Started", false)
      case Open =>
        && c.countdown == Some("Ends in " + Interpolate(GetCountdown(end, now)))
        && c.view == Button("View Questions", true) && c.submit == Button("Submit Answers", true)
      case Over =>
        && c.countdown == None
        && c.view == Button("View Questions", true) && c.submit == Button("Closed", false)
  {
  }

  /** Before the start the text is "Starts in " and a real countdown: never "null". */
  lemma StartsInBeforeStart(start: int, end: int, now: int)
    requires now < start
    ensures var c := GetCountdown(start, now);
      c.Some? && CountdownText(start, end, now) == Some("Starts in " + c.value)
      && ParseClock(c.value).Some?
  {
    CountdownRoundTrip(start, now);
  }

  /** Strictly inside the window the text is "Ends in " and a real countdown to the end. */
  lemma EndsInDuringWindow(start: int, end: int, now: int)
    requires start <= now < end
    ensures var c := GetCountdown(end, now);
      c.Some? && CountdownText(start, end, now) == Some("Ends in " + c.value)
      && ParseClock(c.value).Some?
  {
    CountdownRoundTrip(end, now);
  }

  /**
   * At the very millisecond of the end the exam is not yet ended, but the
   * helper already yields `null`, which the template literal prints.
   */
  lemma EndsInNullAtDeadline(start: int, end: int)
    requires start <= end
    ensures CountdownText(start, end, end) == Some("Ends in null")
  {
    assert GetCountdown(end, end) == None;
    assert "Ends in " + "null" == "Ends in null";
  }

  /** "Closed" whenever ended, even for a window whose start lies after its end. */
  lemma ClosedWheneverEnded(start: int, end: int, now: int)
    requires end < now
    ensures SubmitButton(ExamWindow(start, end, now)) == Button("Closed", false)
  {
  }

  /** Each button's label and enabled state agree with the window flags. */
  lemma ButtonsFollowWindow(start: int, end: int, now: int)
    ensures var v := ViewButton(ExamWindow(start, end, now));
      (v.enabled <==> start <= now) && (v.caption == "View Questions" <==> start <= now)
    ensures var b := SubmitButton(ExamWindow(start, end, now));
      && (b.enabled <==> start <= now <= end)
      && (b.caption == "Submit Answers" <==> start <= now <= end)
      && (b.caption == "Closed" <==> end < now)
      && (b.caption == "Not Started" <==> now < start && now <= end)
  {
  }

  // ---------------------------------------------------------------------------
  // Question max marks
  // ---------------------------------------------------------------------------

  /** One line of the list: question number (from 1) and its maximum marks. */
  datatype MarkRow = MarkRow(number: nat, marks: int)

  /** `maxMarks?.[idx] ?? 0`: the stored marks, or 0 when the list or the entry is missing. */
  function MarksOrZero(maxMarks: Option<seq<int>>, idx: nat): (m: int)
    ensures maxMarks.Some? && idx < |maxMarks.value| ==> m == maxMarks.value[idx]
    ensures m != 0 ==> maxMarks.Some? && idx < |maxMarks.value|
  {
    if maxMarks.Some? && idx < |maxMarks.value| then maxMarks.value[idx] else 0
  }

  /** The rows for questions `from + 1` to `count`. */
  function RowsFrom(from: nat, count: nat, maxMarks: Option<seq<int>>): (rows: seq<MarkRow>)
    requires from <= count
    ensures |rows| == count - from
    ensures forall k :: 0 <= k < |rows| ==> rows[k] == MarkRow(from + k + 1, MarksOrZero(maxMarks, from + k))
    decreases count - from
  {
    if from == count then []
    else [MarkRow(from + 1, MarksOrZero(maxMarks, from))] + RowsFrom(from + 1, count, maxMarks)
  }

  /**
   * `Array.from({ length: numQuestions }).map(...)`: one row per question,
   * none for a non-positive count.
   */
  function MaxMarksList(numQuestions: int, maxMarks: Option<seq<int>>): (rows: seq<MarkRow>)
    ensures |rows| == if numQuestions > 0 then numQuestions else 0
    ensures forall i :: 0 <= i < |rows| ==> rows[i].number == i + 1
    ensures forall i :: 0 <= i < |rows| ==>
      rows[i].marks == (if maxMarks.Some? && i < |maxMarks.value| then maxMarks.value[i] else 0)
  {
    RowsFrom(0, if numQuestions > 0 then numQuestions else 0, maxMarks)
  }

  /** With at least `numQuestions` stored marks, every row shows its stored marks. */
  lemma {:induction false} MaxMarksListMatchesStored(numQuestions: nat, marks: seq<int>)
    requires numQuestions <= |marks|
    ensures forall i :: 0 <= i < numQuestions ==> MaxMarksList(numQuestions, Some(marks))[i].marks == marks[i]
  {
  }

  // ---------------------------------------------------------------------------
  // Upload panel
  // ---------------------------------------------------------------------------

  /** A file chosen in the file picker; its bytes are not modelled. */
  datatype FileRef = FileRef(name: string)

  /** The multipart form posted on submit: the `pdf` and `examId` fields. */
  datatype UploadRequest = UploadRequest(pdf: FileRef, examId: string)

  /** How the upload request settled: accepted, or rejected with the response body's fields. */
  datatype PostOutcome = Accepted | Rejected(error: Option<string>, message: Option<string>)

  /** A JavaScript string value is truthy when it is present and not empty. */
  predicate Truthy(x: Option<string>) {
    x.Some? && x.value != ""
  }

  /** `error || message || "Submission failed."`. */
  function FailureMessage(error: Option<string>, message: Option<string>): (m: string)
    ensures m != ""
    ensures Truthy(error) ==> m == error.value
    ensures !Truthy(error) && Truthy(message) ==> m == message.value
    ensures !Truthy(error) && !Truthy(message) ==> m == "Submission failed."
  {
    if Truthy(error) then error.value else if Truthy(message) then message.value else "Submission failed."
  }

  const NoFileMessage := "Please select a PDF file."
  const UploadingMessage := "Uploading..."
  const SuccessMessage := "Submission successful!"

  /**
   * The component state behind the upload panel: which exam's panel is open,
   * which file is chosen, and the message shown under the button.
   */
  class UploadPanel {
    var activeExamId: Option<string>
    var selectedFile: Option<FileRef>
    var uploadMsg: Option<string>

    /** A file is only ever chosen while some exam's panel is open. */
    ghost predicate Valid()
      reads this
    {
      selectedFile.Some? ==> activeExamId.Some?
    }

    constructor ()
      ensures Valid()
      ensures activeExamId == None && selectedFile == None && uploadMsg == None
    {
      activeExamId := None;
      selectedFile := None;
      uploadMsg := None;
    }

    /** The panel (file input and upload button) is shown for this exam's card. */
    function ShowsPanel(examId: string, start: int, end: int, now: int): (shown: bool)
      reads this
      ensures shown <==> activeExamId == Some(examId) && start <= now <= end
    {
      activeExamId == Some(examId) && ExamWindow(start, end, now).canSubmit
    }

    /** The panel's button reads "Upload PDF" once a file is chosen, "Choose PDF" before. */
    function UploadCaption(): (caption: string)
      reads this
      ensures caption == "Upload PDF" <==> selectedFile.Some?
      ensures caption == "Choose PDF" <==> selectedFile.None?
    {
      if selectedFile.Some? then "Upload PDF" else "Choose PDF"
    }

    /** `handleButtonClick`: opens the panel for `examId` and clears the message and the file. */
    method ButtonClick(examId: string)
      modifies this
      ensures Valid()
      ensures activeExamId == Some(examId) && uploadMsg == None && selectedFile == None
    {
      activeExamId := Some(examId);
      uploadMsg := None;
      selectedFile := None;
    }

    /**
     * `handleFileChange`: the first chosen file, or none. The file input only
     * exists inside an open panel.
     */
    method FileChange(files: seq<FileRef>)
      requires Valid() && activeExamId.Some?
      modifies this
      ensures Valid()
      ensures selectedFile == (if |files| > 0 then Some(files[0]) else None)
      ensures activeExamId == old(activeExamId) && uploadMsg == old(uploadMsg)
    {
      selectedFile := if |files| > 0 then Some(files[0]) else None;
    }

    /**
     * `handleSubmit` up to its `await`: without a file it only sets the
     * message "Please select a PDF file."; with one it shows "Uploading..."
     * and yields the request it posts.
     */
    method BeginSubmit(examId: string) returns (request: Option<UploadRequest>)
      requires Valid()
      modifies this
      ensures Valid()
      ensures activeExamId == old(activeExamId) && selectedFile == old(selectedFile)
      ensures old(selectedFile).None? ==> request == None && uploadMsg == Some(NoFileMessage)
      ensures old(selectedFile).Some? ==>
        request == Some(UploadRequest(old(selectedFile).value, examId)) && uploadMsg == Some(UploadingMessage)
    {
      if selectedFile.None? {
        uploadMsg := Some(NoFileMessage);
        request := None;
        return;
      }
      uploadMsg := Some(UploadingMessage);
      request := Some(UploadRequest(selectedFile.value, examId));
    }

    /**
     * `handleSubmit` after its `await`: success closes the panel and clears
     * the file; failure keeps both and shows the server's error, else its
     * message, else "Submission failed.".
     */
    method FinishSubmit(outcome: PostOutcome)
      requires Valid()
      modifies this
      ensures Valid()
      ensures outcome.Accepted? ==>
        uploadMsg == Some(SuccessMessage) && activeExamId == None && selectedFile == None
      ensures outcome.Rejected? ==>
        && uploadMsg == Some(FailureMessage(outcome.error, outcome.message))
        && activeExamId == old(activeExamId) && selectedFile == old(selectedFile)
    {
      match outcome
      case Accepted =>
        uploadMsg := Some(SuccessMessage);
        activeExamId := None;
        selectedFile := None;
      case Rejected(error, message) =>
        uploadMsg := Some(FailureMessage(error, message));
    }
  }

  /** "Upload PDF" is only ever shown inside an open panel. */
  lemma UploadOnlyWhenOpen(panel: UploadPanel)
    requires panel.Valid()
    ensures panel.UploadCaption() == "Upload PDF" ==> panel.activeExamId.Some?
  {
  }

  /**
   * A click, a file choice and an accepted upload set the success message,
   * but the same step closes the panel, the only place that message is
   * shown: no card displays it.
   */
  method SuccessNeverShown(panel: UploadPanel, examId: string, file: FileRef)
    modifies panel
    ensures panel.uploadMsg == Some(SuccessMessage)
    ensures forall e, start, end, now :: !panel.ShowsPanel(e, start, end, now)
  {
    panel.ButtonClick(examId);
    panel.FileChange([file]);
    var request := panel.BeginSubmit(examId);
    assert request == Some(UploadRequest(file, examId));
    panel.FinishSubmit(Accepted);
  }

  /** A click, a file choice and a rejected upload leave the panel open with the file and the failure text. */
  method ClickChooseAndFail(panel: UploadPanel, examId: string, file: FileRef)
    modifies panel
    ensures panel.activeExamId == Some(examId) && panel.selectedFile == Some(file)
    ensures panel.uploadMsg == Some("Submission failed.")
  {
    panel.ButtonClick(examId);
    panel.FileChange([file]);
    var request := panel.BeginSubmit(examId);
    assert request == Some(UploadRequest(file, examId));
    panel.FinishSubmit(Rejected(None, Some("")));
  }
}

=== FILE: decimal.dfy ===
/**
 * Decimal text of non-negative integers, as JavaScript's `String(n)` writes it
 * for the integers the countdown produces, and `padStart(2, "0")`; together with
 * the inverse reading of a digit string back into a number.
 */
module Decimal {

  predicate IsDigit(c: char) {
    '0' <= c <= '9'
  }

  predicate AllDigits(s: string) {
    forall i :: 0 <= i < |s| ==> IsDigit(s[i])
  }

  function DigitChar(d: nat): (c: char)
    requires d < 10
    ensures IsDigit(c)
  {
    (48 + d) as char
  }

  function DigitValue(c: char): (d: nat)
    requires IsDigit(c)
    ensures d < 10
  {
    (c as int) - 48
  }

  /** `String(n)` for a non-negative integer: its shortest decimal representation. */
  function NatToString(n: nat): (s: string)
    ensures |s| >= 1 && AllDigits(s)
    ensures n < 10 <==> |s| == 1
    ensures n < 100 <==> |s| <= 2
    ensures s[0] == '0' <==> n == 0
    decreases n
  {
    if n < 10 then [DigitChar(n)] else NatToString(n / 10) + [DigitChar(n % 10)]
  }

  /** The number a digit string denotes (leading zeros allowed). */
  function Value(s: string): nat
    requires AllDigits(s)
  {
    if s == [] then 0 else Value(s[..|s| - 1]) * 10 + DigitValue(s[|s| - 1])
  }

  /** `s.padStart(2, "0")`: prefix zeros up to length two, never truncate. */
  function PadStart2(s: string): (r: string)
    ensures |r| == if |s| < 2 then 2 else |s|
    ensures r[|r| - |s|..] == s
    ensures forall i :: 0 <= i < |r| - |s| ==> r[i] == '0'
  {
    if |s| == 0 then "00" else if |s| == 1 then "0" + s else s
  }

  /** `String(n).padStart(2, "0")`, the field format of the countdown. */
  function TwoDigits(n: nat): string {
    PadStart2(NatToString(n))
  }

  lemma {:induction false} DigitRoundTrip(d: nat)
    requires d < 10
    ensures DigitValue(DigitChar(d)) == d
  {
  }

  /** Reading back the decimal text of `n` gives `n`. */
  lemma {:induction false} ValueOfNatToString(n: nat)
    ensures Value(NatToString(n)) == n
    decreases n
  {
    var s := NatToString(n);
    if n < 10 {
      assert s[..|s| - 1] == [];
      DigitRoundTrip(n);
    } else {
      ValueOfNatToString(n / 10);
      assert s[..|s| - 1] == NatToString(n / 10);
      DigitRoundTrip(n % 10);
    }
  }

  /** A leading zero does not change the value of a digit string. */
  lemma {:induction false} ValueLeadingZero(s: string)
    requires AllDigits(s)
    ensures AllDigits("0" + s) && Value("0" + s) == Value(s)
    decreases |s|
  {
    var z := "0" + s;
    assert AllDigits(z) by {
      forall i | 0 <= i < |z| ensures IsDigit(z[i]) {
        if i > 0 { assert z[i] == s[i - 1]; }
      }
    }
    if s == [] {
      assert z[..|z| - 1] == [];
    } else {
      var p := s[..|s| - 1];
      ValueLeadingZero(p);
      assert z[..|z| - 1] == "0" + p;
      assert z[|z| - 1] == s[|s| - 1];
    }
  }

  /** A padded field reads back as the number it was made from, and has exactly two digits below 100. */
  lemma {:induction false} TwoDigitsRoundTrip(n: nat)
    ensures AllDigits(TwoDigits(n)) && Value(TwoDigits(n)) == n
    ensures |TwoDigits(n)| >= 2
    ensures |TwoDigits(n)| == 2 <==> n < 100
  {
    var s := NatToString(n);
    ValueOfNatToString(n);
    if |s| == 1 {
      ValueLeadingZero(s);
      assert TwoDigits(n) == "0" + s;
    }
  }
}

=== FILE: json_text.dfy ===
/**
 * JSON string literals as `JSON.stringify` writes them (section 7 of RFC 8259,
 * with the escapes ECMAScript's QuoteJSONString chooses), and a reader for
 * string literals that undoes them.
 */
module JsonText {

  import opened Wrappers

  const Backspace: char := 8 as char
  const FormFeed: char := 12 as char

  /** A lower-case hexadecimal digit, as JSON.stringify writes in a `\u00XX` escape. */
  function HexDigit(d: nat): (c: char)
    requires d < 16
  {
    if d < 10 then (48 + d) as char else (87 + d) as char
  }

  function HexValue(c: char): Option<nat> {
    if '0' <= c <= '9' then Some(c as int - 48)
    else if 'a' <= c <= 'f' then Some(c as int - 87)
    else if 'A' <= c <= 'F' then Some(c as int - 55)
    else None
  }

  /** How one character appears inside a JSON string literal. */
  function EscapeChar(c: char): (r: string)
    ensures 1 <= |r| <= 6
  {
    if c == '"' then "\\\""
    else if c == '\\' then "\\\\"
    else if c == Backspace then "\\b"
    else if c == '\t' then "\\t"
    else if c == '\n' then "\\n"
    else if c == FormFeed then "\\f"
    else if c == '\r' then "\\r"
    else if (c as int) < 0x20 then ['\\', 'u', '0', '0', HexDigit(c as int / 16), HexDigit(c as int % 16)]
    else [c]
  }

  /** The body of the literal: every character escaped, nothing else. */
  function EscapeBody(s: string): (r: string)
    ensures |r| >= |s|
    decreases |s|
  {
    if s == [] then [] else EscapeChar(s[0]) + EscapeBody(s[1..])
  }

  /** `JSON.stringify` of a string. */
  function Quote(s: string): (r: string)
    ensures |r| >= |s| + 2 && r[0] == '"' && r[|r| - 1] == '"'
  {
    "\"" + EscapeBody(s) + "\""
  }

  /**
   * Reads the escape after a backslash: the character it stands for and how
   * many characters it takes up after the backslash. A `\u` escape naming a
   * surrogate half is rejected, as no single character stands for it here.
   */
  function ReadEscape(s: string): (r: Option<(char, nat)>)
    ensures r.Some? ==> 1 <= r.value.1 <= |s|
  {
    if s == [] then None
    else if s[0] == '"' then Some(('"', 1))
    else if s[0] == '\\' then Some(('\\', 1))
    else if s[0] == '/' then Some(('/', 1))
    else if s[0] == 'b' then Some((Backspace, 1))
    else if s[0] == 'f' then Some((FormFeed, 1))
    else if s[0] == 'n' then Some(('\n', 1))
    else if s[0] == 'r' then Some(('\r', 1))
    else if s[0] == 't' then Some(('\t', 1))
    else if s[0] == 'u' && |s| >= 5 then
      var h0, h1, h2, h3 := HexValue(s[1]), HexValue(s[2]), HexValue(s[3]), HexValue(s[4]);
      if h0.None? || h1.None? || h2.None? || h3.None? then None
      else
        var v := h0.value * 4096 + h1.value * 256 + h2.value * 16 + h3.value;
        if 0xD800 <= v < 0xE000 then None else Some((v as char, 5))
    else None
  }

  /**
   * Reads the body of a string literal up to its closing quote: the decoded
   * text and what follows the quote. Unescaped control characters are refused.
   */
  function ReadStringBody(s: string): Option<(string, string)>
    decreases |s|
  {
    if s == [] then None
    else if s[0] == '"' then Some(([], s[1..]))
    else if s[0] == '\\' then
      match ReadEscape(s[1..])
      case None => None
      case Some((c, n)) =>
        match ReadStringBody(s[1 + n..])
        case None => None
        case Some((t, rest)) => Some(([c] + t, rest))
    else if (s[0] as int) < 0x20 then None
    else
      match ReadStringBody(s[1..])
      case None => None
      case Some((t, rest)) => Some(([s[0]] + t, rest))
  }

  /** Reads one string literal at the head of `s`: its text and what follows it. */
  function ReadString(s: string): Option<(string, string)> {
    if |s| > 0 && s[0] == '"' then ReadStringBody(s[1..]) else None
  }

  /** Reading one escaped character first yields that character, then carries on after it. */
  lemma {:induction false} ReadEscapedChar(c: char, t: string)
    ensures ReadStringBody(EscapeChar(c) + t) ==
      match ReadStringBody(t)
      case None => None
      case Some((u, rest)) => Some(([c] + u, rest))
  {
    var s := EscapeChar(c) + t;
    if c == '"' || c == '\\' || c == Backspace || c == '\t' || c == '\n' || c == FormFeed || c == '\r' {
      assert s[0] == '\\' && s[1] == EscapeChar(c)[1];
      assert ReadEscape(s[1..]) == Some((c, 1));
      assert s[2..] == t;
    } else if (c as int) < 0x20 {
      var hi, lo := c as int / 16, c as int % 16;
      assert s[0] == '\\' && s[1] == 'u' && s[2] == '0' && s[3] == '0';
      assert s[4] == HexDigit(hi) && s[5] == HexDigit(lo);
      assert HexValue(HexDigit(hi)) == Some(hi) && HexValue(HexDigit(lo)) == Some(lo);
      assert 0 * 4096 + 0 * 256 + hi * 16 + lo == c as int;
      assert ReadEscape(s[1..]) == Some((c, 5));
      assert s[6..] == t;
    } else {
      assert s[0] == c && s[1..] == t;
    }
  }

  /** Reading back a quoted text yields the text and exactly what followed the literal. */
  lemma {:induction false} ReadEscapeBody(x: string, rest: string)
    ensures ReadStringBody(EscapeBody(x) + "\"" + rest) == Some((x, rest))
    decreases |x|
  {
    if x == [] {
      assert EscapeBody(x) + "\"" + rest == "\"" + rest;
      assert ("\"" + rest)[1..] == rest;
    } else {
      var t := EscapeBody(x[1..]) + "\"" + rest;
      assert EscapeBody(x) + "\"" + rest == EscapeChar(x[0]) + t;
      ReadEscapedChar(x[0], t);
      ReadEscapeBody(x[1..], rest);
      assert [x[0]] + x[1..] == x;
    }
  }

  /** `JSON.parse` undoes `JSON.stringify` on strings, leaving what follows untouched. */
  lemma {:induction false} QuoteRoundTrip(x: string, rest: string)
    ensures ReadString(Quote(x) + rest) == Some((x, rest))
  {
    var s := Quote(x) + rest;
    assert s[1..] == EscapeBody(x) + "\"" + rest;
    ReadEscapeBody(x, rest);
  }

  /** A quoted text never contains an unescaped double quote before its closing one. */
  lemma {:induction false} QuoteIsInjective(x: string, y: string)
    requires Quote(x) == Quote(y)
    ensures x == y
  {
    QuoteRoundTrip(x, []);
    QuoteRoundTrip(y, []);
    assert Quote(x) + [] == Quote(x) && Quote(y) + [] == Quote(y);
  }
}

=== FILE: qr_pdf_bundle.dfy ===
/**
 * The teacher's QR answer-sheet bundle: for one exam, a ZIP archive holding
 * one cover-page PDF per student of the exam's batch, each page carrying a QR
 * code of the student's and the exam's identity.
 *
 * The document store is a pair of maps from identifiers to records, the HTTP
 * response and the archive writer are small classes recording what the
 * controller does to them, and a PDF page is represented by the text it
 * carries (the QR payload, the exam heading and the course heading); the
 * bytes of QR images, PDFs and the compressed archive are not modelled.
 */
module QrPdfBundle {

  import opened Wrappers
  import opened JsonText

  // ---------------------------------------------------------------------------
  // Records
  // ---------------------------------------------------------------------------

  /** A roster entry: the student's id (the 24-character ObjectId text) and display name. */
  datatype Student = Student(id: string, name: string)

  /** The fields of an exam the bundle uses; `courseName` is the populated course's name. */
  datatype ExamRecord = ExamRecord(title: string, courseName: string, batchId: string)

  /** A batch with its populated roster, in stored order. */
  datatype BatchRecord = BatchRecord(students: seq<Student>)

  /** `Model.findById`: the record with that id, if there is one. */
  function FindById<T>(store: map<string, T>, id: string): (r: Option<T>)
    ensures r.Some? <==> id in store
    ensures r.Some? ==> r.value == store[id]
  {
    if id in store then Some(store[id]) else None
  }

  // ---------------------------------------------------------------------------
  // ObjectId text: how `findById` casts the path parameter
  // ---------------------------------------------------------------------------

  /** A hexadecimal digit of either case, as the JSON reader also accepts. */
  predicate IsHexDigitChar(c: char) {
    HexValue(c).Some?
  }

  /** Text an ObjectId can be cast from: exactly 24 hexadecimal digits, of either case. */
  predicate IsObjectIdText(s: string) {
    |s| == 24 && forall i :: 0 <= i < |s| ==> IsHexDigitChar(s[i])
  }

  /** `A` to `F` lowered; every other character kept. */
  function LowerHexDigit(c: char): (d: char)
    ensures IsHexDigitChar(c) ==> IsHexDigitChar(d) && !('A' <= d <= 'F')
    ensures !('A' <= c <= 'F') ==> d == c
  {
    if 'A' <= c <= 'F' then (c as int + 32) as char else c
  }

  /** The text `toString()` gives for the ObjectId cast from `s`: the same digits in lower case. */
  function CanonicalId(s: string): (r: string)
    ensures |r| == |s|
    ensures forall i :: 0 <= i < |s| ==> r[i] == LowerHexDigit(s[i])
    decreases |s|
  {
    if s == [] then [] else [LowerHexDigit(s[0])] + CanonicalId(s[1..])
  }

  /** Text already in lower case is its own canonical form. */
  lemma CanonicalIdOfLower(s: string)
    requires forall i :: 0 <= i < |s| ==> !('A' <= s[i] <= 'F')
    ensures CanonicalId(s) == s
  {
  }

  /** The canonical form of ObjectId text is ObjectId text in lower case, and canonical again. */
  lemma CanonicalIdIsLower(s: string)
    requires IsObjectIdText(s)
    ensures IsObjectIdText(CanonicalId(s))
    ensures forall i :: 0 <= i < |s| ==> !('A' <= CanonicalId(s)[i] <= 'F')
    ensures CanonicalId(CanonicalId(s)) == CanonicalId(s)
  {
    CanonicalIdOfLower(CanonicalId(s));
  }

  /** The three ways a `findById` on text settles. */
  datatype Lookup<T> = CastFailed | Missing | Found(record: T)

  /**
   * `Model.findById(idText)`: a CastError for text that is not ObjectId text,
   * otherwise the record stored under the cast id, if there is one. Stored ids
   * are keyed by their canonical text.
   */
  function FindByIdText<T>(store: map<string, T>, id: string): (r: Lookup<T>)
    ensures r.CastFailed? <==> !IsObjectIdText(id)
    ensures r.Found? <==> IsObjectIdText(id) && CanonicalId(id) in store
    ensures r.Found? ==> r.record == store[CanonicalId(id)]
  {
    if !IsObjectIdText(id) then CastFailed
    else
      match FindById(store, CanonicalId(id))
      case None => Missing
      case Some(record) => Found(record)
  }

  // ---------------------------------------------------------------------------
  // Title sanitising: title.replace(/\s+/g, "_")
  // ---------------------------------------------------------------------------

  /** The characters the regular-expression class `\s` matches (white space and line terminators). */
  predicate IsWhitespace(c: char) {
    var n := c as int;
    || 9 <= n <= 13 || n == 0x20 || n == 0xA0 || n == 0x1680 || 0x2000 <= n <= 0x200A
    || n == 0x2028 || n == 0x2029 || n == 0x202F || n == 0x205F || n == 0x3000 || n == 0xFEFF
  }

  predicate NoWhitespace(s: string) {
    forall i :: 0 <= i < |s| ==> !IsWhitespace(s[i])
  }

  /** What follows the run of white space that `s` starts with. */
  function SkipWhitespace(s: string): (r: string)
    ensures |r| <= |s|
    ensures r == [] || !IsWhitespace(r[0])
    decreases |s|
  {
    if s != [] && IsWhitespace(s[0]) then SkipWhitespace(s[1..]) else s
  }

  /** What is skipped is a run of white space, and what is left is the rest of the text. */
  lemma {:induction false} SkipWhitespaceSplits(s: string)
    ensures s[|s| - |SkipWhitespace(s)|..] == SkipWhitespace(s)
    ensures forall i :: 0 <= i < |s| - |SkipWhitespace(s)| ==> IsWhitespace(s[i])
    decreases |s|
  {
    if s != [] && IsWhitespace(s[0]) {
      SkipWhitespaceSplits(s[1..]);
      assert s[1..][|s| - 1 - |SkipWhitespace(s)|..] == s[|s| - |SkipWhitespace(s)|..];
      assert forall i :: 1 <= i < |s| - |SkipWhitespace(s)| ==> s[i] == s[1..][i - 1];
    }
  }

  /** Every maximal run of white space replaced by one `_`. */
  function CollapseWhitespace(s: string): (r: string)
    ensures |r| <= |s|
    decreases |s|
  {
    if s == [] then []
    else if IsWhitespace(s[0]) then "_" + CollapseWhitespace(SkipWhitespace(s[1..]))
    else [s[0]] + CollapseWhitespace(s[1..])
  }

  /** No white space survives sanitising. */
  lemma {:induction false} CollapseHasNoWhitespace(s: string)
    ensures NoWhitespace(CollapseWhitespace(s))
    decreases |s|
  {
    if s != [] {
      var t := if IsWhitespace(s[0]) then SkipWhitespace(s[1..]) else s[1..];
      CollapseHasNoWhitespace(t);
      var c := CollapseWhitespace(t);
      assert forall i :: 1 <= i < |c| + 1 ==> CollapseWhitespace(s)[i] == c[i - 1];
    }
  }

  /** A text without white space is left as it is. */
  lemma {:induction false} CollapseKeepsClean(s: string)
    requires NoWhitespace(s)
    ensures CollapseWhitespace(s) == s
    decreases |s|
  {
    if s != [] {
      CollapseKeepsClean(s[1..]);
      assert [s[0]] + s[1..] == s;
    }
  }

  /** Sanitising twice is sanitising once. */
  lemma CollapseIdempotent(s: string)
    ensures CollapseWhitespace(CollapseWhitespace(s)) == CollapseWhitespace(s)
  {
    CollapseHasNoWhitespace(s);
    CollapseKeepsClean(CollapseWhitespace(s));
  }

  /** A title is unchanged by sanitising exactly when it has no white space. */
  lemma CollapseUnchangedIff(s: string)
    ensures CollapseWhitespace(s) == s <==> NoWhitespace(s)
  {
    CollapseHasNoWhitespace(s);
    if NoWhitespace(s) {
      CollapseKeepsClean(s);
    }
  }

  /** Skipping white space looks no further than the first character that is not white space. */
  lemma {:induction false} SkipWhitespaceAppend(x: string, y: string)
    requires x != [] && !IsWhitespace(x[|x| - 1])
    ensures SkipWhitespace(x + y) == SkipWhitespace(x) + y
    ensures SkipWhitespace(x) != [] && !IsWhitespace(SkipWhitespace(x)[|SkipWhitespace(x)| - 1])
    decreases |x|
  {
    if IsWhitespace(x[0]) {
      assert (x + y)[1..] == x[1..] + y;
      SkipWhitespaceAppend(x[1..], y);
    }
  }

  /** A run of white space followed by a text that does not start with white space is skipped entirely. */
  lemma {:induction false} SkipWhitespaceRun(w: string, b: string)
    requires forall i :: 0 <= i < |w| ==> IsWhitespace(w[i])
    requires b == [] || !IsWhitespace(b[0])
    ensures SkipWhitespace(w + b) == b
    decreases |w|
  {
    if w == [] {
      assert w + b == b;
    } else {
      assert (w + b)[1..] == w[1..] + b;
      SkipWhitespaceRun(w[1..], b);
    }
  }

  /** Sanitising splits at a boundary whose left side does not end in white space. */
  lemma {:induction false} CollapseAppend(a: string, b: string)
    requires a == [] || !IsWhitespace(a[|a| - 1])
    ensures CollapseWhitespace(a + b) == CollapseWhitespace(a) + CollapseWhitespace(b)
    decreases |a|, 1
  {
    if a == [] {
      assert a + b == b;
    } else if IsWhitespace(a[0]) {
      CollapseAppendRun(a, b);
    } else {
      assert (a + b)[0] == a[0] && (a + b)[1..] == a[1..] + b;
      CollapseAppend(a[1..], b);
    }
  }

  /** `CollapseAppend` when `a` starts with white space: the run is skipped inside `a`. */
  lemma {:induction false} CollapseAppendRun(a: string, b: string)
    requires a != [] && IsWhitespace(a[0]) && !IsWhitespace(a[|a| - 1])
    ensures CollapseWhitespace(a + b) == CollapseWhitespace(a) + CollapseWhitespace(b)
    decreases |a|, 0
  {
    var x := a[1..];
    var k := SkipWhitespace(x);
    calc {
      CollapseWhitespace(a + b);
    == { assert (a + b)[0] == a[0]; assert (a + b)[1..] == x + b; }
      "_" + CollapseWhitespace(SkipWhitespace(x + b));
    == { SkipWhitespaceAppend(x, b); }
      "_" + CollapseWhitespace(k + b);
    == { SkipWhitespaceAppend(x, b); CollapseAppend(k, b); }
      "_" + (CollapseWhitespace(k) + CollapseWhitespace(b));
    ==
      ("_" + CollapseWhitespace(k)) + CollapseWhitespace(b);
    ==
      CollapseWhitespace(a) + CollapseWhitespace(b);
    }
  }

  /** A maximal run of white space becomes one `_`. */
  lemma {:induction false} CollapseRun(w: string, b: string)
    requires w != [] && forall i :: 0 <= i < |w| ==> IsWhitespace(w[i])
    requires b == [] || !IsWhitespace(b[0])
    ensures CollapseWhitespace(w + b) == "_" + CollapseWhitespace(b)
  {
    assert (w + b)[0] == w[0];
    assert (w + b)[1..] == w[1..] + b;
    SkipWhitespaceRun(w[1..], b);
  }

  /**
   * The whole replacement rule: a maximal run of white space between `a` and
   * `b` becomes one `_`, and the two sides are sanitised on their own.
   */
  lemma {:induction false} ReplacesEachMaximalRun(a: string, w: string, b: string)
    requires a == [] || !IsWhitespace(a[|a| - 1])
    requires w != [] && forall i :: 0 <= i < |w| ==> IsWhitespace(w[i])
    requires b == [] || !IsWhitespace(b[0])
    ensures CollapseWhitespace(a + w + b) == CollapseWhitespace(a) + "_" + CollapseWhitespace(b)
  {
    var wb := w + b;
    var ca, cb := CollapseWhitespace(a), CollapseWhitespace(b);
    assert CollapseWhitespace(wb) == "_" + cb by { CollapseRun(w, b); }
    assert CollapseWhitespace(a + wb) == ca + CollapseWhitespace(wb) by { CollapseAppend(a, wb); }
    assert a + w + b == a + wb;
    assert ca + ("_" + cb) == ca + "_" + cb;
  }

  // ---------------------------------------------------------------------------
  // Names and payloads
  // ---------------------------------------------------------------------------

  /** The suggested download name of the bundle. */
  function DownloadName(title: string): (name: string)
    ensures 14 <= |name| <= |title| + 14 && name[|name| - 14..] == "_QR_Papers.zip"
  {
    CollapseWhitespace(title) + "_QR_Papers.zip"
  }


  /** A character Node's `setHeader` accepts in a value: tab, space, visible ASCII and 0x80 to 0xFF. */
  predicate IsHeaderChar(c: char) {
    c == '\t' || ' ' <= c <= '~' || 0x80 <= c as int <= 0xFF
  }

  /** A value `setHeader` accepts; any other makes it throw. */
  predicate IsValidHeaderValue(v: string) {
    forall i :: 0 <= i < |v| ==> IsHeaderChar(v[i])
  }

  /** Every character of the title is white space (which is collapsed) or a header character. */
  predicate HeaderSafeTitle(t: string) {
    forall i :: 0 <= i < |t| ==> IsWhitespace(t[i]) || IsHeaderChar(t[i])
  }

  lemma HeaderValueAppend(a: string, b: string)
    ensures IsValidHeaderValue(a + b) <==> IsValidHeaderValue(a) && IsValidHeaderValue(b)
  {
    if IsValidHeaderValue(a + b) {
      assert forall i :: 0 <= i < |a| ==> a[i] == (a + b)[i];
      assert forall i :: 0 <= i < |b| ==> b[i] == (a + b)[|a| + i];
    }
  }

  /** The sanitised title is a valid header value exactly when the title is header-safe. */
  lemma {:induction false} CollapseHeaderSafe(s: string)
    ensures IsValidHeaderValue(CollapseWhitespace(s)) <==> HeaderSafeTitle(s)
    decreases |s|
  {
    if s != [] {
      var t := s[1..];
      assert HeaderSafeTitle(s) <==> (IsWhitespace(s[0]) || IsHeaderChar(s[0])) && HeaderSafeTitle(t) by {
        assert forall i :: 0 < i < |s| ==> s[i] == t[i - 1];
      }
      if IsWhitespace(s[0]) {
        var u := SkipWhitespace(t);
        SkipWhitespaceSplits(t);
        CollapseHeaderSafe(u);
        HeaderValueAppend("_", CollapseWhitespace(u));
        assert HeaderSafeTitle(t) <==> HeaderSafeTitle(u) by {
          assert forall i :: 0 <= i < |u| ==> u[i] == t[|t| - |u| + i];
        }
      } else {
        assert CollapseWhitespace(s) == [s[0]] + CollapseWhitespace(t);
        CollapseHeaderSafe(t);
        HeaderValueAppend([s[0]], CollapseWhitespace(t));
        assert IsValidHeaderValue([s[0]]) <==> IsHeaderChar(s[0]) by {
          assert [s[0]][0] == s[0];
        }
      }
    }
  }

  const DispositionHead := "attachment; filename=\""
  const DispositionTail := "_QR_Papers.zip\""

  lemma DispositionPartsValid()
    ensures IsValidHeaderValue(DispositionHead) && IsValidHeaderValue(DispositionTail)
  {
    assert DispositionHead == ['a', 't', 't', 'a', 'c', 'h', 'm', 'e', 'n', 't', ';', ' ',
                               'f', 'i', 'l', 'e', 'n', 'a', 'm', 'e', '=', '"'];
    assert DispositionTail == ['_', 'Q', 'R', '_', 'P', 'a', 'p', 'e', 'r', 's', '.', 'z', 'i', 'p', '"'];
  }

  /**
   * `attachment; filename="<download name>"`. `setHeader` accepts it exactly
   * when every character of the title is white space or a header character; a
   * title with any other character (outside 0x00 to 0xFF, or a control
   * character that is not white space) makes it throw.
   */
  function ContentDisposition(title: string): (v: string)
    ensures IsValidHeaderValue(v) <==> HeaderSafeTitle(title)
  {
    var c := CollapseWhitespace(title);
    assert DispositionHead + DownloadName(title) + "\"" == DispositionHead + (c + DispositionTail);
    DispositionPartsValid();
    HeaderValueAppend(DispositionHead, c + DispositionTail);
    HeaderValueAppend(c, DispositionTail);
    CollapseHeaderSafe(title);
    DispositionHead + DownloadName(title) + "\""
  }

  /** `{name}_{id}_{sanitised title}.pdf`; the student's name is not sanitised. */
  function EntryName(student: Student, title: string): (name: string)
  {
    student.name + "_" + student.id + "_" + CollapseWhitespace(title) + ".pdf"
  }

  const PayloadHead := "{\"studentId\":"
  const PayloadMiddle := ",\"examId\":"

  /** `JSON.stringify({ studentId, examId })`: the two keys in that order. */
  function QrPayload(studentId: string, examId: string): (p: string)
  {
    PayloadHead + Quote(studentId) + PayloadMiddle + Quote(examId) + "}"
  }

  /** Reads a QR payload back into its student id and exam id. */
  function ReadQrPayload(p: string): Option<(string, string)> {
    if |p| < |PayloadHead| || p[..|PayloadHead|] != PayloadHead then None
    else
      match ReadString(p[|PayloadHead|..])
      case None => None
      case Some((studentId, rest)) =>
        match ReadExamIdField(rest)
        case None => None
        case Some(examId) => Some((studentId, examId))
  }

  /** Reads `,"examId":<string>}` to the end of the payload. */
  function ReadExamIdField(p: string): Option<string> {
    if |p| < |PayloadMiddle| || p[..|PayloadMiddle|] != PayloadMiddle then None
    else
      match ReadString(p[|PayloadMiddle|..])
      case None => None
      case Some((examId, tail)) => if tail == "}" then Some(examId) else None
  }

  lemma {:induction false} ReadExamIdFieldRoundTrip(examId: string)
    ensures ReadExamIdField(PayloadMiddle + Quote(examId) + "}") == Some(examId)
  {
    var p := PayloadMiddle + Quote(examId) + "}";
    assert p[..|PayloadMiddle|] == PayloadMiddle;
    assert p[|PayloadMiddle|..] == Quote(examId) + "}";
    QuoteRoundTrip(examId, "}");
  }

  /** Scanning a payload yields exactly the student id and the exam id it was made from. */
  lemma {:induction false} QrPayloadRoundTrip(studentId: string, examId: string)
    ensures ReadQrPayload(QrPayload(studentId, examId)) == Some((studentId, examId))
  {
    var p := QrPayload(studentId, examId);
    var rest := PayloadMiddle + Quote(examId) + "}";
    assert p == PayloadHead + (Quote(studentId) + rest);
    assert p[..|PayloadHead|] == PayloadHead;
    assert p[|PayloadHead|..] == Quote(studentId) + rest;
    QuoteRoundTrip(studentId, rest);
    ReadExamIdFieldRoundTrip(examId);
  }

  /** Different (student, exam) pairs never share a payload. */
  lemma QrPayloadInjective(s1: string, e1: string, s2: string, e2: string)
    requires QrPayload(s1, e1) == QrPayload(s2, e2)
    ensures s1 == s2 && e1 == e2
  {
    QrPayloadRoundTrip(s1, e1);
    QrPayloadRoundTrip(s2, e2);
  }

  /** Students with distinct ids of equal length get distinct entry names. */
  lemma {:induction false} EntryNamesDistinct(s1: Student, s2: Student, title: string)
    requires s1.id != s2.id && |s1.id| == |s2.id|
    ensures EntryName(s1, title) != EntryName(s2, title)
  {
    var suffix := "_" + CollapseWhitespace(title) + ".pdf";
    var p1, p2 := s1.name + "_" + s1.id, s2.name + "_" + s2.id;
    var n1, n2 := EntryName(s1, title), EntryName(s2, title);
    assert n1 == p1 + suffix && n2 == p2 + suffix;
    assert n1[..|p1|] == p1 && n2[..|p2|] == p2;
    assert p1[|p1| - |s1.id|..] == s1.id && p2[|p2| - |s2.id|..] == s2.id;
  }

  /** Ids of different lengths can collide: name "a_b" with id "c" and name "a" with id "b_c". */
  lemma EntryNamesCanCollide(title: string)
    ensures EntryName(Student("c", "a_b"), title) == EntryName(Student("b_c", "a"), title)
  {
  }

  // ---------------------------------------------------------------------------
  // Bundle entries
  // ---------------------------------------------------------------------------

  /** One cover page: the QR code's payload, then "Exam: …" and "Course: …" headings. */
  datatype CoverPage = CoverPage(qrPayload: string, examHeading: string, courseHeading: string)

  /** One archive entry: its file name and the page its PDF holds. */
  datatype Entry = Entry(name: string, page: CoverPage)

  function EntryFor(examId: string, exam: ExamRecord, student: Student): (e: Entry)
  {
    Entry(
      EntryName(student, exam.title),
      CoverPage(QrPayload(student.id, examId), "Exam: " + exam.title, "Course: " + exam.courseName))
  }

  /** The entries of a bundle for the given roster, appended one student at a time. */
  function BundleEntries(examId: string, exam: ExamRecord, roster: seq<Student>): (entries: seq<Entry>)
    ensures |entries| == |roster|
    decreases |roster|
  {
    if roster == [] then []
    else BundleEntries(examId, exam, roster[..|roster| - 1]) + [EntryFor(examId, exam, roster[|roster| - 1])]
  }

  /** One entry per student, in roster order. */
  lemma {:induction false} BundleEntriesAt(examId: string, exam: ExamRecord, roster: seq<Student>)
    ensures |BundleEntries(examId, exam, roster)| == |roster|
    ensures forall i :: 0 <= i < |roster| ==> BundleEntries(examId, exam, roster)[i] == EntryFor(examId, exam, roster[i])
    decreases |roster|
  {
    if roster != [] {
      var front := roster[..|roster| - 1];
      BundleEntriesAt(examId, exam, front);
      var entries := BundleEntries(examId, exam, roster);
      var last := EntryFor(examId, exam, roster[|roster| - 1]);
      assert entries == BundleEntries(examId, exam, front) + [last];
      forall i | 0 <= i < |roster| ensures entries[i] == EntryFor(examId, exam, roster[i]) {
        if i < |front| {
          calc {
            entries[i];
            BundleEntries(examId, exam, front)[i];
            EntryFor(examId, exam, front[i]);
            { assert front[i] == roster[i]; }
            EntryFor(examId, exam, roster[i]);
          }
        }
      }
    }
  }

  /** Every entry's QR code decodes to its own student's id and the requested exam id. */
  lemma BundlePayloadsDecode(examId: string, exam: ExamRecord, roster: seq<Student>)
    ensures var entries := BundleEntries(examId, exam, roster);
      |entries| == |roster| &&
      forall i :: 0 <= i < |roster| ==> ReadQrPayload(entries[i].page.qrPayload) == Some((roster[i].id, examId))
  {
    BundleEntriesAt(examId, exam, roster);
    forall i | 0 <= i < |roster|
      ensures ReadQrPayload(BundleEntries(examId, exam, roster)[i].page.qrPayload) == Some((roster[i].id, examId))
    {
      QrPayloadRoundTrip(roster[i].id, examId);
    }
  }

  /** Ids pairwise distinct and of one length: no two entries of the bundle share a name. */
  lemma BundleNamesDistinct(examId: string, exam: ExamRecord, roster: seq<Student>)
    requires forall i, j :: 0 <= i < j < |roster| ==> roster[i].id != roster[j].id
    requires forall i, j :: 0 <= i < j < |roster| ==> |roster[i].id| == |roster[j].id|
    ensures var entries := BundleEntries(examId, exam, roster);
      |entries| == |roster| &&
      forall i, j :: 0 <= i < j < |entries| ==> entries[i].name != entries[j].name
  {
    BundleEntriesAt(examId, exam, roster);
    var entries := BundleEntries(examId, exam, roster);
    forall i, j | 0 <= i < j < |entries| ensures entries[i].name != entries[j].name {
      EntryNamesDistinct(roster[i], roster[j], exam.title);
    }
  }

  /**
   * Roster ids are ObjectId text, so they all have one length: distinct
   * students always get distinct file names.
   */
  lemma ObjectIdRosterNamesDistinct(examId: string, exam: ExamRecord, roster: seq<Student>)
    requires forall i :: 0 <= i < |roster| ==> IsObjectIdText(roster[i].id)
    requires forall i, j :: 0 <= i < j < |roster| ==> roster[i].id != roster[j].id
    ensures var entries := BundleEntries(examId, exam, roster);
      |entries| == |roster| &&
      forall i, j :: 0 <= i < j < |entries| ==> entries[i].name != entries[j].name
  {
    BundleNamesDistinct(examId, exam, roster);
  }

  // ---------------------------------------------------------------------------
  // The HTTP response and the archive writer
  // ---------------------------------------------------------------------------

  /** `{"message": …}` as `res.json` serialises it. */
  function MessageJson(message: string): (text: string)
    ensures |text| > 11 && text[..11] == "{\"message\":"
    ensures ReadString(text[11..]) == Some((message, "}"))
  {
    QuoteRoundTrip(message, "}");
    assert ("{\"message\":" + Quote(message) + "}")[11..] == Quote(message) + "}";
    "{\"message\":" + Quote(message) + "}"
  }

  const CharsetSuffix := "; charset=utf-8"
  const JsonContentType := "application/json; charset=utf-8"

  /** Express's `setCharset(type, "utf-8")` on a media type that carries no parameters yet. */
  function WithCharset(t: string): string {
    if ';' in t then t else t + CharsetSuffix
  }

  /**
   * The headers after `res.json`: a Content-Type is set to
   * `application/json; charset=utf-8` when there is none, and an existing one
   * gains `; charset=utf-8`; every other header is kept.
   */
  function JsonAnswerHeaders(h: map<string, string>): (r: map<string, string>)
    ensures r.Keys == h.Keys + {"Content-Type"}
    ensures forall k :: k in h && k != "Content-Type" ==> r[k] == h[k]
    ensures "Content-Type" !in h ==> r["Content-Type"] == JsonContentType
  {
    h["Content-Type" := if "Content-Type" in h then WithCharset(h["Content-Type"]) else JsonContentType]
  }

  /** The response body: nothing yet, a JSON text, or the piped ZIP stream. */
  datatype Body = Unsent | Json(text: string) | ZipStream

  class Response {
    var statusCode: int
    var headers: map<string, string>
    var body: Body

    constructor ()
      ensures statusCode == 200 && headers == map[] && body == Unsent
    {
      statusCode := 200;
      headers := map[];
      body := Unsent;
    }

    /** `res.status(code).json({ message })`, which also sets the JSON content type. */
    method SendMessage(code: int, message: string)
      modifies this
      ensures statusCode == code && body == Json(MessageJson(message))
      ensures headers == JsonAnswerHeaders(old(headers))
    {
      statusCode := code;
      headers := JsonAnswerHeaders(headers);
      body := Json(MessageJson(message));
    }

    /** `res.setHeader(name, value)`: replaces the header, or throws on a value with a forbidden character. */
    method SetHeader(name: string, value: string) returns (ok: bool)
      modifies this
      ensures ok == IsValidHeaderValue(value)
      ensures headers == if ok then old(headers)[name := value] else old(headers)
      ensures statusCode == old(statusCode) && body == old(body)
    {
      ok := IsValidHeaderValue(value);
      if ok {
        headers := headers[name := value];
      }
    }

    /** `archive.pipe(res)`: from now on the body is the archive's output. */
    method AttachZipStream()
      modifies this
      ensures body == ZipStream && statusCode == old(statusCode) && headers == old(headers)
    {
      body := ZipStream;
    }
  }

  /** The ZIP writer: the entries appended so far, and whether it has been finalised. */
  class Archive {
    var entries: seq<Entry>
    var finalized: bool

    constructor ()
      ensures entries == [] && !finalized
    {
      entries := [];
      finalized := false;
    }

    /** `archive.append(buffer, { name })`; only before finalising. */
    method Append(name: string, page: CoverPage)
      requires !finalized
      modifies this
      ensures entries == old(entries) + [Entry(name, page)] && !finalized
    {
      entries := entries + [Entry(name, page)];
    }

    /** `archive.finalize()`: once, after which nothing more is appended. */
    method Finalize()
      requires !finalized
      modifies this
      ensures finalized && entries == old(entries)
    {
      finalized := true;
    }
  }

  const ContentTypeZip := "application/zip"

  lemma ContentTypeZipIsValid()
    ensures IsValidHeaderValue(ContentTypeZip)
    ensures ';' !in ContentTypeZip
  {
    var v := ContentTypeZip;
    assert v == ['a', 'p', 'p', 'l', 'i', 'c', 'a', 't', 'i', 'o', 'n', '/', 'z', 'i', 'p'];
  }

  /** An error answered after the ZIP content type was set carries `application/zip; charset=utf-8`. */
  lemma JsonAnswerAfterZip(h: map<string, string>)
    ensures JsonAnswerHeaders(h["Content-Type" := ContentTypeZip])
      == h["Content-Type" := ContentTypeZip + CharsetSuffix]
  {
    ContentTypeZipIsValid();
    assert WithCharset(ContentTypeZip) == ContentTypeZip + CharsetSuffix;
  }

  // ---------------------------------------------------------------------------
  // The controller
  // ---------------------------------------------------------------------------

  /**
   * The two `setHeader` calls: the content type always succeeds; the
   * disposition succeeds exactly when the download name is a valid header value.
   */
  method SetZipHeaders(res: Response, title: string) returns (ok: bool)
    modifies res
    ensures ok == IsValidHeaderValue(ContentDisposition(title))
    ensures res.headers == if ok
      then old(res.headers)["Content-Type" := ContentTypeZip]["Content-Disposition" := ContentDisposition(title)]
      else old(res.headers)["Content-Type" := ContentTypeZip]
    ensures res.statusCode == old(res.statusCode) && res.body == old(res.body)
  {
    ContentTypeZipIsValid();
    var typeSet := res.SetHeader("Content-Type", ContentTypeZip);
    assert typeSet;
    ok := res.SetHeader("Content-Disposition", ContentDisposition(title));
  }

  /** The controller's loop: one cover page per roster student, appended in roster order. */
  method AppendRoster(archive: Archive, examId: string, exam: ExamRecord, roster: seq<Student>)
    requires archive.entries == [] && !archive.finalized
    modifies archive
    ensures archive.entries == BundleEntries(examId, exam, roster) && !archive.finalized
  {
    var i := 0;
    while i < |roster|
      invariant 0 <= i <= |roster|
      invariant archive.entries == BundleEntries(examId, exam, roster[..i])
      invariant !archive.finalized
    {
      var student := roster[i];
      var qrData := QrPayload(student.id, examId);
      var page := CoverPage(qrData, "Exam: " + exam.title, "Course: " + exam.courseName);
      var filename := EntryName(student, exam.title);
      archive.Append(filename, page);
      assert roster[..i + 1][..i] == roster[..i];
      assert BundleEntries(examId, exam, roster[..i + 1])
        == BundleEntries(examId, exam, roster[..i]) + [EntryFor(examId, exam, student)];
      i := i + 1;
    }
    assert roster[..|roster|] == roster;
  }

  const FailureText := "Failed to generate PDF bundle"

  /**
   * `generateQrPdfBundle` for the path parameter `examId`. Text that is not
   * ObjectId text makes `findById` reject, which the catch answers with 500.
   * A missing exam or batch answers 404. None of these sets a header of the
   * controller's own or creates an archive; `res.json` sets the JSON content
   * type. A title whose download name cannot stand in a header answers 500
   * before anything is piped. Otherwise the ZIP headers are set, the archive
   * is piped into the response, receives one entry per roster student in
   * order, and is then finalised. The payloads carry `examId` as given, not
   * its canonical form. The returned archive is the one the controller wrote
   * into.
   */
  method GenerateQrPdfBundle(examId: string, exams: map<string, ExamRecord>,
                             batches: map<string, BatchRecord>, res: Response)
    returns (archive: Archive?)
    modifies res
    ensures !IsObjectIdText(examId) ==>
      && archive == null && res.statusCode == 500
      && res.body == Json(MessageJson(FailureText)) && res.headers == JsonAnswerHeaders(old(res.headers))
    ensures (IsObjectIdText(examId) && CanonicalId(examId) !in exams) ==>
      && archive == null && res.statusCode == 404
      && res.body == Json(MessageJson("Exam not found")) && res.headers == JsonAnswerHeaders(old(res.headers))
    ensures (IsObjectIdText(examId) && CanonicalId(examId) in exams
             && exams[CanonicalId(examId)].batchId !in batches) ==>
      && archive == null && res.statusCode == 404
      && res.body == Json(MessageJson("Batch not found")) && res.headers == JsonAnswerHeaders(old(res.headers))
    ensures (IsObjectIdText(examId) && CanonicalId(examId) in exams
             && exams[CanonicalId(examId)].batchId in batches
             && !IsValidHeaderValue(ContentDisposition(exams[CanonicalId(examId)].title))) ==>
      && archive != null && fresh(archive) && archive.entries == [] && !archive.finalized
      && res.statusCode == 500 && res.body == Json(MessageJson(FailureText))
      && res.headers == old(res.headers)["Content-Type" := ContentTypeZip + CharsetSuffix]
    ensures (IsObjectIdText(examId) && CanonicalId(examId) in exams
             && exams[CanonicalId(examId)].batchId in batches
             && IsValidHeaderValue(ContentDisposition(exams[CanonicalId(examId)].title))) ==>
      var exam := exams[CanonicalId(examId)];
      && archive != null && fresh(archive) && archive.finalized
      && archive.entries == BundleEntries(examId, exam, batches[exam.batchId].students)
      && res.statusCode == old(res.statusCode) && res.body == ZipStream
      && res.headers == old(res.headers)["Content-Type" := ContentTypeZip]
                                        ["Content-Disposition" := ContentDisposition(exam.title)]
  {
    var foundExam := FindByIdText(exams, examId);
    if foundExam.CastFailed? {
      res.SendMessage(500, FailureText);
      return null;
    }
    if foundExam.Missing? {
      res.SendMessage(404, "Exam not found");
      return null;
    }
    var exam := foundExam.record;

    var foundBatch := FindById(batches, exam.batchId);
    if foundBatch.None? {
      res.SendMessage(404, "Batch not found");
      return null;
    }
    archive := StreamBundle(examId, exam, foundBatch.value.students, res);
  }

  /**
   * The controller after both lookups: a fresh archive, the two headers, and
   * then either the 500 answer (the download name is not a valid header
   * value) or the piped, filled and finalised archive.
   */
  method StreamBundle(examId: string, exam: ExamRecord, roster: seq<Student>, res: Response)
    returns (archive: Archive)
    modifies res
    ensures fresh(archive)
    ensures !IsValidHeaderValue(ContentDisposition(exam.title)) ==>
      && archive.entries == [] && !archive.finalized
      && res.statusCode == 500 && res.body == Json(MessageJson(FailureText))
      && res.headers == old(res.headers)["Content-Type" := ContentTypeZip + CharsetSuffix]
    ensures IsValidHeaderValue(ContentDisposition(exam.title)) ==>
      && archive.finalized && archive.entries == BundleEntries(examId, exam, roster)
      && res.statusCode == old(res.statusCode) && res.body == ZipStream
      && res.headers == old(res.headers)["Content-Type" := ContentTypeZip]
                                        ["Content-Disposition" := ContentDisposition(exam.title)]
  {
    archive := new Archive();

    var dispositionSet := SetZipHeaders(res, exam.title);
    assert archive.entries == [] && !archive.finalized;
    if !dispositionSet {
      JsonAnswerAfterZip(old(res.headers));
      res.SendMessage(500, FailureText);
      return;
    }

    res.AttachZipStream();
    AppendRoster(archive, examId, exam, roster);
    archive.Finalize();
  }

  // ---------------------------------------------------------------------------
  // The worked case: exam "Midterm 1" of course "CS101", students s1 Alice and s2 Bob
  // ---------------------------------------------------------------------------

  const MidtermWord := "Midterm"
  const MidtermNumber := "1"

  /** "Midterm 1" is sanitised to "Midterm_1". */
  lemma MidtermTitle()
    ensures CollapseWhitespace(MidtermWord + " " + MidtermNumber) == MidtermWord + "_" + MidtermNumber
  {
    assert NoWhitespace(MidtermWord) && NoWhitespace(MidtermNumber) by {
      assert MidtermWord == ['M', 'i', 'd', 't', 'e', 'r', 'm'];
    }
    ReplacesEachMaximalRun(MidtermWord, " ", MidtermNumber);
    CollapseKeepsClean(MidtermWord);
    CollapseKeepsClean(MidtermNumber);
  }

  /** The download name of "Midterm 1" is a valid header value, so the bundle is streamed. */
  lemma MidtermDispositionValid()
    ensures IsValidHeaderValue(ContentDisposition(MidtermWord + " " + MidtermNumber))
  {
    var title := MidtermWord + " " + MidtermNumber;
    assert HeaderSafeTitle(title) by {
      assert title == ['M', 'i', 'd', 't', 'e', 'r', 'm', ' ', '1'];
    }

  }

  /** Escaping a text without quotes, backslashes or control characters leaves it as it is. */
  lemma {:induction false} EscapeBodyPlain(x: string)
    requires forall i :: 0 <= i < |x| ==> x[i] != '"' && x[i] != '\\' && x[i] as int >= 0x20
    ensures EscapeBody(x) == x
    decreases |x|
  {
    if x != [] {
      EscapeBodyPlain(x[1..]);
      assert [x[0]] + x[1..] == x;
    }
  }

  /** Ids that JSON leaves unescaped appear verbatim between the payload's quotes. */
  lemma QrPayloadOfPlainIds(studentId: string, examId: string)
    requires EscapeBody(studentId) == studentId && EscapeBody(examId) == examId
    ensures QrPayload(studentId, examId)
      == "{\"studentId\":\"" + studentId + "\",\"examId\":\"" + examId + "\"}"
  {
    var q := "\"";
    calc {
      QrPayload(studentId, examId);
      PayloadHead + (q + studentId + q) + PayloadMiddle + (q + examId + q) + "}";
      { Regroup(PayloadHead, q, studentId, q, PayloadMiddle, q, examId, q, "}"); }
      (PayloadHead + q) + studentId + (q + PayloadMiddle + q) + examId + (q + "}");
      { PayloadPieces(); }
      "{\"studentId\":\"" + studentId + "\",\"examId\":\"" + examId + "\"}";
    }
  }

  /** Moving the quotes from around the ids onto the fixed parts. */
  lemma Regroup(a: string, b: string, c: string, d: string, e: string, f: string, g: string, h: string, i: string)
    ensures a + (b + c + d) + e + (f + g + h) + i == (a + b) + c + (d + e + f) + g + (h + i)
  {
  }

  /** The fixed parts of a payload around the two quoted ids. */
  lemma PayloadPieces()
    ensures PayloadHead + "\"" == "{\"studentId\":\""
    ensures "\"" + PayloadMiddle + "\"" == "\",\"examId\":\""
    ensures "\"" + "}" == "\"}"
  {
  }

  const MidtermExamId := "65f1a2b3c4d5e6f708192a3b"

  /** Lower-case hexadecimal text is ObjectId text when 24 long, is canonical, and JSON leaves it unescaped. */
  lemma LowerHexIsPlain(s: string)
    requires forall i :: 0 <= i < |s| ==> '0' <= s[i] <= '9' || 'a' <= s[i] <= 'f'
    ensures |s| == 24 ==> IsObjectIdText(s)
    ensures CanonicalId(s) == s && EscapeBody(s) == s
  {
    CanonicalIdOfLower(s);
    EscapeBodyPlain(s);
  }

  /** The worked exam id is ObjectId text already in canonical form, and JSON leaves it unescaped. */
  lemma MidtermExamIdIsCanonical()
    ensures IsObjectIdText(MidtermExamId) && CanonicalId(MidtermExamId) == MidtermExamId
    ensures EscapeBody(MidtermExamId) == MidtermExamId
  {
    var id := MidtermExamId;
    assert |id| == 24;
    forall i | 0 <= i < 24 ensures '0' <= id[i] <= '9' || 'a' <= id[i] <= 'f' {
    }
    LowerHexIsPlain(id);
  }

  const MidtermExam := ExamRecord(MidtermWord + " " + MidtermNumber, "CS101", "b1")
  const MidtermRoster := [Student("s1", "Alice"), Student("s2", "Bob")]

  /** Alice's file is `Alice_s1_Midterm_1.pdf`. */
  lemma MidtermAliceName()
    ensures EntryFor(MidtermExamId, MidtermExam, MidtermRoster[0]).name == "Alice_s1_Midterm_1.pdf"
  {
    var student := MidtermRoster[0];
    assert student == Student("s1", "Alice");
    var title := MidtermWord + "_" + MidtermNumber;
    assert CollapseWhitespace(MidtermExam.title) == title by { MidtermTitle(); }
    assert student.name + "_" + student.id + "_" + title + ".pdf"
      == ['A', 'l', 'i', 'c', 'e', '_', 's', '1', '_', 'M', 'i', 'd', 't', 'e', 'r', 'm', '_', '1', '.', 'p', 'd', 'f'];
  }

  /** Alice's page carries the QR payload `{"studentId":"s1","examId":"65f1a2b3c4d5e6f708192a3b"}`. */
  lemma MidtermAlicePayload()
    ensures EntryFor(MidtermExamId, MidtermExam, MidtermRoster[0]).page.qrPayload
      == "{\"studentId\":\"" + "s1" + "\",\"examId\":\"" + MidtermExamId + "\"}"
  {
    var student := MidtermRoster[0];
    assert student == Student("s1", "Alice");
    EscapeBodyPlain(student.id);
    MidtermExamIdIsCanonical();
    QrPayloadOfPlainIds(student.id, MidtermExamId);
  }

  /** Bob's file is `Bob_s2_Midterm_1.pdf`. */
  lemma MidtermBobName()
    ensures EntryFor(MidtermExamId, MidtermExam, MidtermRoster[1]).name == "Bob_s2_Midterm_1.pdf"
  {
    var student := MidtermRoster[1];
    assert student == Student("s2", "Bob");
    var title := MidtermWord + "_" + MidtermNumber;
    assert CollapseWhitespace(MidtermExam.title) == title by { MidtermTitle(); }
    assert student.name + "_" + student.id + "_" + title + ".pdf"
      == ['B', 'o', 'b', '_', 's', '2', '_', 'M', 'i', 'd', 't', 'e', 'r', 'm', '_', '1', '.', 'p', 'd', 'f'];
  }

  /** Bob's page carries the QR payload `{"studentId":"s2","examId":"65f1a2b3c4d5e6f708192a3b"}`. */
  lemma MidtermBobPayload()
    ensures EntryFor(MidtermExamId, MidtermExam, MidtermRoster[1]).page.qrPayload
      == "{\"studentId\":\"" + "s2" + "\",\"examId\":\"" + MidtermExamId + "\"}"
  {
    var student := MidtermRoster[1];
    assert student == Student("s2", "Bob");
    EscapeBodyPlain(student.id);
    MidtermExamIdIsCanonical();
    QrPayloadOfPlainIds(student.id, MidtermExamId);
  }

  /** The worked case run through the controller. */
  method MidtermExample(res: Response) returns (archive: Archive?)
    modifies res
    ensures archive != null && archive.finalized
    ensures archive.entries == BundleEntries(MidtermExamId, MidtermExam, MidtermRoster)
    ensures |archive.entries| == 2
    ensures archive.entries[0] == EntryFor(MidtermExamId, MidtermExam, MidtermRoster[0])
    ensures archive.entries[1] == EntryFor(MidtermExamId, MidtermExam, MidtermRoster[1])
  {
    MidtermDispositionValid();
    MidtermExamIdIsCanonical();
    archive := GenerateQrPdfBundle(MidtermExamId, map[MidtermExamId := MidtermExam],
                                   map["b1" := BatchRecord(MidtermRoster)], res);
    BundleEntriesAt(MidtermExamId, MidtermExam, MidtermRoster);
  }
}

=== FILE: wrappers.dfy ===
/** The optional value used wherever the source has `null`, `undefined` or a lookup that can miss. */
module Wrappers {

  datatype Option<+T> = None | Some(value: T)
}
